=== FILE: README.md ===
# Script editor core, in Dafny

A model of the sequential logic under the Python script editor for the
Unreal engine (a Qt window with script tabs, a code editor with a
line-number gutter, a JSON highlighter and an output log), with proofs of
what that logic promises.

The model has six modules:

- `TabPanel` (`tab_panel.dfy`) models the tab widget: script tabs followed
  by a trailing "add" pseudo-tab, and a current index. It covers
  `insert_tab`, `add_tab`, `remove_tab`, `clear_script`, `save_configs`,
  `load_configs` and `load_tabs`, working at the level of `TabConfig`
  records. The records' `label` field is `tabLabel` in the model, since
  `label` is a Dafny keyword. The
  central result is that saving and then loading into a fresh window
  gives back the same tabs and current tab.
- `Execution` (`execution.dfy`) models `execute`/`execute_sel`,
  `send_formatted_output`, the exception hook that `register_traceback`
  installs, and `clear_all`. The engine's reply is written to the log
  entry by entry, and severity decides the format. An exception raised
  by a script run outside the engine is logged by the hook.
- `OutputLog` (`output_log.dfy`) models the output panel: a document of
  formatted segments and a scroll position. `update_logger` selects one of
  four formats from the severity string, appends the message and a
  newline, and scrolls to the bottom. `update_logger_html` appends HTML
  and a `<br>`, which add their rendered text and a newline to the
  plain text. `clear` empties the document.
- `Gutter` (`gutter.dfy`) models the code editor's line-number area: the
  width arithmetic, the paint loop over the text blocks, the
  scroll-or-repaint decision, the margins, the resize geometry and the
  current-line highlight.
- `Highlighter` (`highlighter.dfy`) models the JSON highlighter: its
  table of three rules, and the scan loop that turns each rule's matches
  into `setFormat` spans.
- `Wrappers` (`wrappers.dfy`) holds the `Option` type.

Modelling assumptions:

- Qt's `insertTab` inserts into a sequence and appends when the index is
  out of range. `removeTab` deletes from the sequence. `setCurrentIndex`
  ignores an index outside the widget.
- Geometry is in whole pixels. Rectangles use the toolkit's convention
  that the right and bottom edges are `x + width - 1` and
  `y + height - 1`.
- Regular-expression matching is an abstract `Matcher`. Each search
  answers the first match at or after an offset, and the model requires
  that match to lie inside the text and to be at least one character
  long. A compiled pattern is an opaque value, like the toolkit's regular
  expression object. The JSON table's three patterns are the constructors
  of `JsonPattern`, and `Highlighter.Source` keeps their text.
- The scroll bar's maximum is a `Layout` function of the document. The
  plain text an HTML fragment renders to is a `Render` function; a `<br>`
  renders as a line break, which the plain text shows as a newline.
- The output panel's text cursor is at the end of the document with
  nothing selected. `update_logger` sets the format at the cursor and
  inserts there, so the append-only statements about the log hold only
  under this assumption.
- A highlighted block's characters all lie in the Basic Multilingual
  Plane. The toolkit's match offsets and lengths and `setFormat` count in
  UTF-16 code units; for such blocks one `char` is one code unit, so the
  model's lengths are the toolkit's lengths.
- Whether the editor runs inside the engine, and what the engine replies,
  are parameters. So is the exception raised when the text of the current
  tab is read while the add tab is current.
- The log's plain text is the text inserted into it. The toolkit turns
  `"\r"` and `"\r\n"` into a block break and shows line and paragraph
  separators as `"\n"` and a no-break space as a space. The model's
  statements about the log's text therefore assume that messages contain
  none of these characters.

Behaviour a reader might not expect, which the model keeps as the code
has it:

- Warnings are written in the error format (`Execution.EntryFormat`).
  `WARNING_FORMAT` exists and `update_logger` selects it for `'warning'`
  (outputTextWidget.py:15-16, 40-41). But `send_formatted_output` passes
  `'error'` for every entry that is not INFO
  (unreal_script_editor/main.py:249-250).
- Closing the only script tab leaves only the add tab, and the add tab
  is current (`TabPanel.RemoveOnlyScript`). `remove_tab` deletes any tab
  but the last (unreal_script_editor/main.py:291-293), and nothing
  inserts a replacement. Running or clearing a script then fails
  (`Execution.ExecuteOnAddTab`).
- `highlightBlock` does not guard against a zero-length match. The loop
  advances by `index + length`, so a zero length would repeat the same
  match (unreal-script-editor/codeEditor/highlighter/jsonHighlight.py:65-72).
  The model states the non-empty-match requirement (`Highlighter.Consumes`)
  instead of inventing an advance.

## Model

| member | source | states |
|---|---|---|
| OutputLog.FormatFor | outputTextWidget.py:37-45 | 'info', 'warning' and 'error' select the info, warning and error formats, each exactly for that string; any other severity, and none, selects the regular format |
| OutputLog.UpdateLogger | outputTextWidget.py:37-51 | the old document is a strict prefix of the new one; exactly two segments are added, both in the severity's format; the plain text grows by the message and a newline; the scroll position is the scroll bar's maximum for the new document |
| OutputLog.UpdateLoggerHtml | outputTextWidget.py:53-58 | the old document is kept as a prefix, followed by exactly the HTML and a `<br>`; the plain text grows by the fragment's rendered text and a newline; the view scrolls to the maximum |
| OutputLog.Clear | outputTextWidget.py:34-35 | the cleared document holds no segments, so every earlier insertion is gone |
| OutputLog.TranscriptAppend | outputTextWidget.py:47-48 | the text of two documents joined is the first one's text followed by the second's, so appending never alters earlier content |
| OutputLog.ClearForgetsHistory | outputTextWidget.py:34-48 | after a clear, the panel's text is exactly the next message and its newline |
| OutputLog.WritesAccumulate | outputTextWidget.py:47-48 | two writes keep the earlier document as a prefix and both messages in the order written |
| Execution.EntryFormat | unreal_script_editor/main.py:248-252 | an entry is written in the info format exactly when it is INFO, and in the error format exactly when it is anything else |
| Execution.LogEntries | unreal_script_editor/main.py:248-252 | the log grows by each entry's text and a newline, in entry order and in the entry's format, keeping the earlier log as a prefix; no entries leave the log unchanged |
| Execution.SendFormattedOutput | unreal_script_editor/main.py:240-252 | an empty reply changes nothing; otherwise every entry is appended in order in its format |
| Execution.FormatHookMessage | unreal_script_editor/main.py:98-103 | the hook's loop builds the header line `Error: <type>: <value>` and then every traceback line, in order |
| Execution.ExceptHook | unreal_script_editor/main.py:98-106 | an uncaught exception adds exactly one write to the log, in the error format: its message and a newline, behind the unchanged earlier log |
| Execution.Execute | unreal_script_editor/main.py:188-238 | with the add tab current, reading the script fails, nothing runs, and the failure is logged in the error format; outside the engine, a script that completes leaves the log unchanged, and one that raises gets its exception message and a newline appended in the error format; inside the engine, an empty reply leaves the log unchanged, and otherwise the banner around the command is written in the regular format, followed by the entries in order |
| Execution.ExecuteOnAddTab | unreal_script_editor/main.py:188-193 | with only the add tab left, running a script adds only the failure's message and a newline to the log, in the engine or outside it |
| TabPanel.ScriptText | unreal_script_editor/main.py:192 | the current tab's text is read exactly when a script tab is current, and it is that tab's text |
| Execution.PrintOneScenario | unreal_script_editor/main.py:188-252 | running `print(1)` with one INFO entry "1" adds the banner and then "1" and a newline in the info format |
| Gutter.LineNumberAreaWidth | codeEditor/codeEditor.py:45-53 | the divide-by-ten loop returns 30 plus the digit advance times the number of decimal digits of `max(1, blockCount)` |
| Gutter.DigitCountBounds | codeEditor/codeEditor.py:46-50 | the digit count of `n >= 1` is at least 1, and `10^(d-1) <= n < 10^d` |
| Gutter.DigitCountIsLog10 | codeEditor/codeEditor.py:46-50 | the digit count is the unique `d` with `10^(d-1) <= n < 10^d` |
| Gutter.DigitCountMonotone | codeEditor/codeEditor.py:46-50 | a larger number never has fewer digits |
| Gutter.GutterWidthMonotone | codeEditor/codeEditor.py:46-52 | the gutter is at least one digit wider than the margin and never narrows as the block count grows |
| Gutter.LabelsFit | codeEditor/codeEditor.py:46-52 | every line number up to the block count fits in the digits the width reserves |
| Gutter.PaintLineNumbers | codeEditor/codeEditor.py:62-82 | the paint loop, which stops at the document's end or at the first block starting below the region, draws exactly the reference list: one number for every block from the first visible one that is shown and overlaps the region |
| Gutter.NothingBelow | codeEditor/codeEditor.py:71 | once a block starts below the region, no later block gets a number, so stopping the loop there loses nothing |
| Gutter.TopsNonDecreasing | codeEditor/codeEditor.py:79-81 | each block's top is at or below the previous one's |
| Gutter.PaintedLines | codeEditor/codeEditor.py:71-73 | block `k` gets number `k + 1` exactly when it is visible, its top is at or above the region's bottom and its bottom at or below the region's top; no other numbers are drawn |
| Gutter.PaintedBoxes | codeEditor/codeEditor.py:73-77 | each number is a block's 1-based number as decimal text, right-aligned at that block's top in a box 10 pixels narrower than the gutter and one font height tall |
| Gutter.PaintedAscending | codeEditor/codeEditor.py:73-82 | the drawn numbers strictly increase |
| Gutter.UpdateLineNumberAreaWidth | codeEditor/codeEditor.py:84-85 | the left viewport margin becomes the gutter width (at least margin plus one digit) and the other margins are 0, whatever block count is passed |
| Gutter.UpdateLineNumberArea | codeEditor/codeEditor.py:87-95 | it scrolls exactly when `dy` is nonzero, by `(0, dy)`; otherwise it repaints the gutter strip level with the rectangle, across the gutter's width; the margins are recomputed exactly when the rectangle contains the viewport |
| Gutter.HighlightCurrentLine | codeEditor/codeEditor.py:97-113 | a read-only editor gets no extra selection; otherwise exactly one, full width, in lightened dark blue, collapsed onto the caret |
| Gutter.ResizeGutter | codeEditor/codeEditor.py:55-60 | the gutter sits at the contents' top-left, is as tall as the contents and as wide as the line numbers need |
| Highlighter.RuleSpans | unreal-script-editor/codeEditor/highlighter/jsonHighlight.py:64-72 | every span of one rule lies inside the block at or after the start offset, is at least one character long and carries the rule's format; consecutive spans do not overlap and are in increasing order |
| Highlighter.RuleSpansChain | unreal-script-editor/codeEditor/highlighter/jsonHighlight.py:64-72 | the spans are the matcher's answers: the first is the first match, and each next is the first match where the previous one ended |
| Highlighter.RuleSpansStop | unreal-script-editor/codeEditor/highlighter/jsonHighlight.py:65-72 | the scan stops exactly where the matcher reports no further match, inside the block |
| Highlighter.ApplyRule | unreal-script-editor/codeEditor/highlighter/jsonHighlight.py:61-72 | the cursor loop appends exactly the rule's spans, and the formats are those of all spans so far painted in order |
| Highlighter.HighlightBlock | unreal-script-editor/codeEditor/highlighter/jsonHighlight.py:55-72 | the spans are every rule's spans in table order, and the formats are these spans painted in order; both are a function of the rules and the text alone, so repeated calls agree |
| Highlighter.ApplySpansLastCover | unreal-script-editor/codeEditor/highlighter/jsonHighlight.py:59-69 | after painting spans in order, each character has the format of the last span over it, or its original format |
| Highlighter.LastCoverConcat | unreal-script-editor/codeEditor/highlighter/jsonHighlight.py:59-69 | a later rule's spans win over an earlier rule's wherever they cover a character |
| Highlighter.LastCoverOneFormat | unreal-script-editor/codeEditor/highlighter/jsonHighlight.py:69 | within one rule, a character's last cover is the rule's format exactly when some span covers it |
| Highlighter.LaterRulesWin | unreal-script-editor/codeEditor/highlighter/jsonHighlight.py:59-69 | for three groups of spans painted in order, each in one format, a character takes the last covering group's format, or none if no group covers it |
| Highlighter.JsonSpans | unreal-script-editor/codeEditor/highlighter/jsonHighlight.py:29-53 | the table has exactly three rules, and its spans are the numeric spans, then the key spans, then the string-value spans |
| Highlighter.JsonPrecedence | unreal-script-editor/codeEditor/highlighter/jsonHighlight.py:29-72 | with the JSON table, a character in a string-value match is dark green; otherwise one in a key match is bold; otherwise one in a numeric match is bold dark blue; otherwise it has no format |
| Highlighter.NoMatchNoSpans | unreal-script-editor/codeEditor/highlighter/jsonHighlight.py:64-65 | when no pattern matches from the start, the block gets no spans |
| Highlighter.EmptyBlockNoSpans | unreal-script-editor/codeEditor/highlighter/jsonHighlight.py:64-65 | an empty block gets no spans |
| TabPanel.InsertTab | unreal_script_editor/main.py:167-184 | the new script tab goes in at the index, with everything before and after it unchanged, and becomes current; an out-of-range index appends it and leaves the current tab alone |
| TabPanel.AddTab | unreal_script_editor/main.py:269-274 | a click on the add tab inserts an empty "Python" tab just before it and makes it current; any other click changes nothing; the widget's shape is kept |
| TabPanel.ClearScript | unreal_script_editor/main.py:260-261 | with a script tab current, exactly that tab's text becomes empty and everything else is kept; with the add tab current the call fails |
| TabPanel.ClearScriptSaves | unreal_script_editor/main.py:260-261 | after clearing, the saved records are those of before, except that the current tab's record has an empty command |
| Execution.ClearAll | unreal_script_editor/main.py:263-265 | with a script tab current, that script is cleared and the log emptied; otherwise the tabs are kept, the log is not cleared, and the failure is logged in the error format |
| TabPanel.RemoveTab | unreal_script_editor/main.py:276-293 | nothing changes without confirmation or for the add tab; otherwise tab `index` alone is deleted and tab `index - 1` (0 for the first tab) becomes current; the widget's shape is kept |
| TabPanel.RemoveOnlyScript | unreal_script_editor/main.py:290-293 | closing the only script tab leaves the add tab alone, and current |
| TabPanel.SaveFrom | unreal_script_editor/main.py:117-124 | the loop from tab `i` emits one record per remaining script tab, each with its position, label, text and whether it was current at the start; the pages are untouched |
| TabPanel.SaveConfigs | unreal_script_editor/main.py:110-127 | one record per script tab, skipping the add tab; record `i` holds index `i`, tab `i`'s label and text, and is active exactly when tab `i` is current; at most one record is active; the widget ends as it started |
| TabPanel.ActiveAfterIsLastActive | unreal_script_editor/main.py:159-165 | the loop's active index is the index of the last record flagged active, or the starting index if none is |
| TabPanel.LoadTabs | unreal_script_editor/main.py:150-165 | one page is added per record (the default record when there are none), and the current tab is the last active record's index, or 0, when a tab at that index exists; otherwise the current tab stays where the inserts left it (the toolkit ignores an out-of-range index) |
| TabPanel.LoadTabsAdds | unreal_script_editor/main.py:150-161 | the pages after loading are exactly the old pages plus one script page per record, carrying the record's label and command, wherever the indices put them |
| TabPanel.LoadTabsInOrder | unreal_script_editor/main.py:150-161 | records numbered on from the add tab's position end up in front of it, in record order, with everything before it kept |
| TabPanel.InsertTabAdds | unreal_script_editor/main.py:167-184 | wherever it is inserted, a new tab adds exactly its script page and removes nothing |
| TabPanel.InsertAllAdds | unreal_script_editor/main.py:159-161 | wherever the records' indices point, inserting them adds exactly one script page per record, with its label and command, and removes nothing |
| TabPanel.InsertAllBeforeAdd | unreal_script_editor/main.py:159-161 | records numbered on from the add tab's position are inserted in front of it, in record order |
| TabPanel.LoadConfigs | unreal_script_editor/main.py:133-157 | with no config file, or with no records, exactly one empty "Python" tab goes in front and is current |
| TabPanel.LoadWithoutFile | unreal_script_editor/main.py:137-139 | starting from the add tab alone, loading without a file gives one empty current "Python" tab before the add tab |
| TabPanel.InsertInOrder | unreal_script_editor/main.py:160-161 | records numbered consecutively from the add tab's position go in front of it, in record order |
| TabPanel.LastActiveUnique | unreal_script_editor/main.py:159-165 | when exactly one record is flagged active, it is the last active record, so its index is the one `load_tabs` picks |
| TabPanel.SavedPagesReload | unreal_script_editor/main.py:110-165 | inserting the saved records into a widget holding only the add tab rebuilds every page, with its label and text, in order |
| TabPanel.SaveLoadRoundTrip | unreal_script_editor/main.py:110-184 | for a well-formed widget whose current tab is a script tab, loading the saved records into a widget that holds only the add tab restores every label, text and the order of the tabs, and the current tab |
| TabPanel.ThreeTabScenario | unreal_script_editor/main.py:110-184 | three tabs "a", "b", "c" with the second current come back identical after saving and loading |

## Left out

- The textual config file. `str()` of a list of dicts, read back with
  `ast.literal_eval`, is left out; the model works on the record list.
  The code does not catch a malformed file (unreal_script_editor/main.py:143),
  so there is no parse-failure path.
- Host execution itself (`unreal.PythonScriptLibrary`, `exec`): what a
  script does, and what it prints outside the engine, which the window
  does not capture. The model takes the engine's reply and the raised
  exception as parameters.
- The file dialogs and file I/O of `open_script` and `save_script`.
- `clear_log` is `ui_log_edit.clear()`, modelled by `OutputLog.Clear`.
- OutputLog.UpdateLogger: the toolkit's normalisation of carriage
  returns, separators and no-break spaces is not modelled. The stated
  growth of the log's text holds for messages without those characters.
- Execution.Execute: the exception raised when reading the add tab's text
  comes from a page this model does not describe, so it is a parameter.
  What `execute_sel` reads is likewise a parameter, because the text
  cursor's selection is not modelled.
- Execution.ClearAll: the exception `clear_script` raises on the add tab
  comes from a page this model does not describe, so it is a parameter.
- The output panel's text cursor. `update_logger` writes at the cursor:
  after a click in the panel it inserts there, and with a selection it
  recolours and replaces the selected text. The model always appends at
  the end, so what it states about earlier content keeping its place
  does not hold after the user moves the cursor.
- The `ui_tabs` and `ui_tab_highlighters` bookkeeping lists. They only
  grow, and nothing in the core reads them.
- The Python highlighter that `insert_tab` attaches. `pyHighlight` is not
  part of this model.
- Painting colours, fonts and the light-grey `fillRect` background, except
  for the highlight's colour name.
- TabPanel.RemoveTab: removing tab 0 makes the window call
  `setCurrentIndex(-1)`. What the toolkit then selects is not modelled;
  the model makes tab 0 current.
- Gutter.LineNumberAreaWidth: the loop multiplies by the float 0.1. The
  model divides by ten in integers, so the digit count is exact; floating
  point and `qreal` block geometry are left out.
- Highlighter.RuleSpans: the regular expressions' semantics are left out,
  including the lookahead in the numeric pattern. The model requires every
  match to consume at least one character; with a zero-length match the
  program's loop would not terminate. Blocks holding characters outside
  the Basic Multilingual Plane (surrogate pairs in UTF-16) are not
  modelled, since a `char` here is never half of a surrogate pair.
- OutputLog.Clear: also moves the scroll position to 0. Nothing about the
  scroll position after a clear is stated.
- The Maya variant `main.py`, `unreal_script_editor/startup.py` (toolbar
  registration), `util.py` and the `codeEditor/main.py` demo launcher.

=== FILE: execution.dfy ===
/**
 * The execution bridge of the script editor window
 * (unreal_script_editor/main.py): the active tab's text goes to the
 * host's Python entry point, and what comes back is written to the
 * output panel. Uncaught exceptions reach the hook the window installs
 * as `sys.excepthook`, which writes them to the panel.
 *
 * The host call itself is a parameter: `inHost` says whether the editor
 * runs inside the engine, `output` is what the engine returned (`None`
 * when it returned nothing), and `raised` is the exception the local
 * `exec` raised, if any.
 */
module Execution {
  import opened Wrappers
  import opened OutputLog
  import TabPanel

  /** The engine's log-entry severities. */
  datatype LogOutputType = Info | Warning | Error

  /** One line the engine logged while running a command. */
  datatype LogEntry = LogEntry(kind: LogOutputType, output: string)

  /** The engine's reply: the command's overall result and its ordered log entries. */
  datatype CommandResult = CommandResult(result: string, entries: seq<LogEntry>)

  /** The severity tag the window uses for an entry: only INFO entries are 'info'. */
  function SeverityOf(kind: LogOutputType): string
  {
    if kind != Info then "error" else "info"
  }

  /** The format an entry is written in. */
  function EntryFormat(kind: LogOutputType): (f: Format)
    ensures f == InfoFormat <==> kind == Info
    ensures f == ErrorFormat <==> kind != Info
  {
    FormatFor(Some(SeverityOf(kind)))
  }

  /**
   * `after` is `before` followed, for each entry in order, by the entry's
   * text and a newline, both in the entry's format.
   */
  predicate Appended(before: seq<Segment>, after: seq<Segment>, entries: seq<LogEntry>)
  {
    && |after| == |before| + 2 * |entries|
    && before <= after
    && forall k :: 0 <= k < |entries| ==>
         && after[|before| + 2 * k] == Plain(EntryFormat(entries[k].kind), entries[k].output)
         && after[|before| + 2 * k + 1] == Plain(EntryFormat(entries[k].kind), Newline)
  }

  /** Writing one entry and then the rest appends all of them. */
  lemma AppendedStep(before: seq<Segment>, after: seq<Segment>, e: LogEntry, rest: seq<LogEntry>)
    requires Appended(before + [Plain(EntryFormat(e.kind), e.output), Plain(EntryFormat(e.kind), Newline)], after, rest)
    ensures Appended(before, after, [e] + rest)
  {
    var mid := before + [Plain(EntryFormat(e.kind), e.output), Plain(EntryFormat(e.kind), Newline)];
    var entries := [e] + rest;
    assert before <= mid <= after;
    forall k | 0 <= k < |entries|
      ensures after[|before| + 2 * k] == Plain(EntryFormat(entries[k].kind), entries[k].output)
      ensures after[|before| + 2 * k + 1] == Plain(EntryFormat(entries[k].kind), Newline)
    {
      if k == 0 {
        assert after[|before|] == mid[|before|];
        assert after[|before| + 1] == mid[|before| + 1];
      } else {
        assert entries[k] == rest[k - 1];
        assert |before| + 2 * k == |mid| + 2 * (k - 1);
      }
    }
  }

  /** The loop of `send_formatted_output` over the entries. */
  function LogEntries(log: Log, entries: seq<LogEntry>, layout: Layout): (r: Log)
    ensures Appended(log.segments, r.segments, entries)
    ensures |entries| == 0 ==> r == log
    ensures |entries| > 0 ==> r.scroll == layout(r.segments)
    decreases |entries|
  {
    if |entries| == 0 then log
    else
      var e := entries[0];
      var next := UpdateLogger(log, e.output, Some(SeverityOf(e.kind)), layout);
      assert next.segments == log.segments + [Plain(EntryFormat(e.kind), e.output), Plain(EntryFormat(e.kind), Newline)];
      var r := LogEntries(next, entries[1..], layout);
      AppendedStep(log.segments, r.segments, e, entries[1..]);
      assert [e] + entries[1..] == entries;
      r
  }

  /** `send_formatted_output`: nothing for an empty reply, otherwise every entry in order. */
  function SendFormattedOutput(log: Log, output: Option<CommandResult>, layout: Layout): (r: Log)
    ensures output.None? ==> r == log
    ensures output.Some? ==> Appended(log.segments, r.segments, output.value.entries)
  {
    match output
    case None => log
    case Some(reply) => LogEntries(log, reply.entries, layout)
  }

  // ---------------------------------------------------------------------
  // The exception hook

  /**
   * An uncaught exception as the hook receives it: the `str` of its class
   * and of its value, and the lines `traceback.format_tb` gives for its
   * traceback (none when there is no traceback).
   */
  datatype PyException = PyException(typeText: string, valueText: string, trace: seq<string>)

  /** Reference: the lines joined front to back. */
  function Joined(lines: seq<string>): string
    decreases |lines|
  {
    if |lines| == 0 then "" else lines[0] + Joined(lines[1..])
  }

  /** The message the hook logs: a header line naming the exception, then the traceback lines in order. */
  function HookMessage(e: PyException): string
  {
    "Error: " + e.typeText + ": " + e.valueText + "\n" + Joined(e.trace)
  }

  /** The hook's message loop: the header, then each traceback line appended in turn. */
  method FormatHookMessage(e: PyException) returns (message: string)
    ensures message == HookMessage(e)
  {
    message := "Error: " + e.typeText + ": " + e.valueText + "\n";
    var i := 0;
    while i < |e.trace|
      invariant 0 <= i <= |e.trace|
      invariant message + Joined(e.trace[i..]) == HookMessage(e)
    {
      JoinedCons(e.trace[i..]);
      assert e.trace[i..][1..] == e.trace[i + 1..];
      message := message + e.trace[i];
      i := i + 1;
    }
    assert e.trace[i..] == [];
  }

  lemma JoinedCons(lines: seq<string>)
    requires |lines| > 0
    ensures Joined(lines) == lines[0] + Joined(lines[1..])
  {
  }

  /**
   * The hook `register_traceback` installs: the exception's message goes
   * to the panel as one write in the error format.
   */
  function ExceptHook(log: Log, e: PyException, layout: Layout): (r: Log)
    ensures log.segments < r.segments
    ensures |r.segments| == |log.segments| + 2
    ensures PlainFrom(r.segments, |log.segments|, ErrorFormat)
    ensures Transcript(r.segments) == Transcript(log.segments) + HookMessage(e) + Newline
    ensures r.scroll == layout(r.segments)
  {
    UpdateLogger(log, HookMessage(e), Some("error"), layout)
  }

  // ---------------------------------------------------------------------
  // Running scripts

  /** The header `execute` writes before the engine's entries. */
  function Banner(command: string): string
  {
    "# Command executed: \n" + command + "\n# Command execution ended"
  }

  /**
   * `execute` (and `execute_sel`, which differs only in reading the
   * selected text). `source` is the text read from the current tab, or
   * `None` when the current page is not a script editor: reading it then
   * raises `failure`, nothing runs, and the hook logs the failure.
   * Otherwise, outside the engine the command runs locally and nothing it
   * prints is captured, but an exception it raises reaches the hook,
   * which logs it in the error format; inside the engine, an empty reply
   * writes nothing, and a reply writes the banner in the regular format
   * and then the entries.
   */
  function Execute(log: Log, source: Option<string>, inHost: bool, output: Option<CommandResult>,
                   raised: Option<PyException>, failure: PyException, layout: Layout): (r: Log)
    ensures source.None? ==>
      && log.segments < r.segments
      && |r.segments| == |log.segments| + 2
      && PlainFrom(r.segments, |log.segments|, ErrorFormat)
      && Transcript(r.segments) == Transcript(log.segments) + HookMessage(failure) + Newline
    ensures source.Some? && !inHost && raised.None? ==> r == log
    ensures source.Some? && !inHost && raised.Some? ==>
      && log.segments < r.segments
      && PlainFrom(r.segments, |log.segments|, ErrorFormat)
      && Transcript(r.segments) == Transcript(log.segments) + HookMessage(raised.value) + Newline
    ensures source.Some? && inHost && output.None? ==> r == log
    ensures source.Some? && inHost && output.Some? ==>
      var banner := [Plain(RegularFormat, Banner(source.value)), Plain(RegularFormat, Newline)];
      Appended(log.segments + banner, r.segments, output.value.entries)
  {
    match source
    case None => ExceptHook(log, failure, layout)
    case Some(command) =>
      if !inHost then
        match raised
        case None => log
        case Some(e) => ExceptHook(log, e, layout)
      else if output.None? then log
      else
        var headed := UpdateLogger(log, Banner(command), None, layout);
        assert headed.segments == log.segments + [Plain(RegularFormat, Banner(command)), Plain(RegularFormat, Newline)];
        SendFormattedOutput(headed, output, layout)
  }

  /**
   * With only the add tab left, running a script never reaches the
   * engine or `exec`: the failed read of the editor text is all the log
   * gains, in the error format.
   */
  lemma ExecuteOnAddTab(log: Log, inHost: bool, output: Option<CommandResult>,
                        raised: Option<PyException>, failure: PyException, layout: Layout)
    ensures var r := Execute(log, TabPanel.ScriptText(TabPanel.Initial), inHost, output, raised, failure, layout);
      && |r.segments| == |log.segments| + 2
      && Transcript(r.segments) == Transcript(log.segments) + HookMessage(failure) + Newline
  {
  }

  /** Running `print(1)` when the engine logs one INFO line "1" adds exactly one blue-grey line after the banner. */
  lemma PrintOneScenario(log: Log, layout: Layout)
    ensures var r := Execute(log, Some("print(1)"), true, Some(CommandResult("", [LogEntry(Info, "1")])), None, PyException("", "", []), layout);
      && |r.segments| == |log.segments| + 4
      && r.segments[|log.segments| + 2..] == [Plain(InfoFormat, "1"), Plain(InfoFormat, Newline)]
  {
    var r := Execute(log, Some("print(1)"), true, Some(CommandResult("", [LogEntry(Info, "1")])), None, PyException("", "", []), layout);
    var n := |log.segments| + 2;
    assert r.segments[n] == Plain(InfoFormat, "1");
    assert r.segments[n + 1] == Plain(InfoFormat, Newline);
  }

  // ---------------------------------------------------------------------
  // Clearing

  /** The two panels of the window. */
  datatype Window = Window(tabs: TabPanel.TabWidget, log: Log)

  /**
   * `clear_all`: `clear_script`, then `clear_log`. When the current page
   * is not a script editor, `clear_script` raises `failure`; `clear_log`
   * is then never reached, and the hook logs the exception instead.
   */
  function ClearAll(win: Window, failure: PyException, layout: Layout): (r: Window)
    ensures TabPanel.ClearScript(win.tabs).Some? ==>
      && r.tabs == TabPanel.ClearScript(win.tabs).value
      && r.log.segments == [] && Transcript(r.log.segments) == ""
    ensures TabPanel.ClearScript(win.tabs).None? ==>
      && r.tabs == win.tabs
      && win.log.segments < r.log.segments
      && PlainFrom(r.log.segments, |win.log.segments|, ErrorFormat)
      && Transcript(r.log.segments) == Transcript(win.log.segments) + HookMessage(failure) + Newline
  {
    match TabPanel.ClearScript(win.tabs)
    case Some(tabs) => Window(tabs, Clear(win.log))
    case None => Window(win.tabs, ExceptHook(win.log, failure, layout))
  }
}

=== FILE: gutter.dfy ===
/**
 * The line-number gutter and current-line highlight of the code editor
 * (codeEditor/codeEditor.py).
 *
 * Geometry is integral: block heights, offsets and rectangles are whole
 * pixels, and rectangles follow the toolkit's convention that the right
 * and bottom edges are the last pixel inside (`x + width - 1`).
 */
module Gutter {
  import opened Wrappers

  /** Fixed part of the gutter width, in pixels. */
  const Margin := 30
  /** Space left free at the right of the gutter when numbers are drawn. */
  const RightPadding := 10

  datatype Rect = Rect(x: int, y: int, width: int, height: int) {
    function Left(): int { x }
    function Top(): int { y }
    function Right(): int { x + width - 1 }
    function Bottom(): int { y + height - 1 }

    predicate IsNull() { width == 0 && height == 0 }

    /** `contains(r)`: neither rectangle is null and `r` lies inside this one, edges included. */
    predicate Contains(r: Rect)
    {
      && !IsNull() && !r.IsNull()
      && Left() <= r.Left() && r.Right() <= Right()
      && Top() <= r.Top() && r.Bottom() <= Bottom()
    }
  }

  // ---------------------------------------------------------------------
  // Gutter width

  function Pow10(k: nat): (p: nat)
    ensures p >= 1
  {
    if k == 0 then 1 else 10 * Pow10(k - 1)
  }

  lemma {:induction false} Pow10Monotone(a: nat, b: nat)
    requires a <= b
    ensures Pow10(a) <= Pow10(b)
    decreases b
  {
    if a < b {
      Pow10Monotone(a, b - 1);
    }
  }

  function DigitChar(d: nat): char
    requires d < 10
  {
    (48 + d) as char
  }

  /** The decimal text of a number, as Python's `str` writes it. */
  function DecimalString(n: nat): (s: string)
    ensures |s| >= 1
  {
    if n < 10 then [DigitChar(n)] else DecimalString(n / 10) + [DigitChar(n % 10)]
  }

  /** The number of decimal digits of `n`. */
  function DigitCount(n: nat): nat
  {
    |DecimalString(n)|
  }

  function Max1(blockCount: int): nat
  {
    if blockCount > 1 then blockCount else 1
  }

  /** The gutter width for a document of `blockCount` blocks and a digit advance of `charWidth` pixels. */
  function GutterWidth(blockCount: int, charWidth: nat): int
  {
    Margin + charWidth * DigitCount(Max1(blockCount))
  }

  /**
   * `line_number_area_width`: count the digits of `max(1, blockCount)` by
   * dividing by ten until one digit is left, and reserve one digit
   * advance per digit beside the fixed margin.
   */
  method LineNumberAreaWidth(blockCount: int, charWidth: nat) returns (space: int)
    ensures space == GutterWidth(blockCount, charWidth)
  {
    var digits: nat := 1;
    var maxNum: nat := if blockCount > 1 then blockCount else 1;
    while maxNum >= 10
      invariant digits >= 1
      invariant digits - 1 + DigitCount(maxNum) == DigitCount(Max1(blockCount))
      decreases maxNum
    {
      maxNum := maxNum / 10;
      digits := digits + 1;
    }
    space := Margin + charWidth * digits;
  }

  /** `n` has `DigitCount(n)` digits: it lies between the matching powers of ten. */
  lemma {:induction false} DigitCountBounds(n: nat)
    requires n >= 1
    ensures DigitCount(n) >= 1
    ensures Pow10(DigitCount(n) - 1) <= n < Pow10(DigitCount(n))
    decreases n
  {
    if n >= 10 {
      var q := n / 10;
      DigitCountBounds(q);
      var d := DigitCount(q);
      assert DigitCount(n) == d + 1;
      assert Pow10(d) == 10 * Pow10(d - 1);
      assert Pow10(d + 1) == 10 * Pow10(d);
      assert n == 10 * q + n % 10;
      assert 10 * Pow10(d - 1) <= 10 * q;
      assert q + 1 <= Pow10(d);
      assert 10 * (q + 1) <= 10 * Pow10(d);
    } else {
      assert Pow10(1) == 10;
    }
  }

  /** The digit count is the one `d` with `10^(d-1) <= n < 10^d`, that is `floor(log10 n) + 1`. */
  lemma DigitCountIsLog10(n: nat, d: nat)
    requires n >= 1 && d >= 1
    requires Pow10(d - 1) <= n < Pow10(d)
    ensures DigitCount(n) == d
  {
    DigitCountBounds(n);
    var e := DigitCount(n);
    if e < d {
      Pow10Monotone(e, d - 1);
    } else if e > d {
      Pow10Monotone(d, e - 1);
    }
  }

  /** More blocks never need fewer digits. */
  lemma DigitCountMonotone(m: nat, n: nat)
    requires m <= n
    ensures DigitCount(m) <= DigitCount(n)
  {
    if m >= 1 {
      DigitCountBounds(m);
      DigitCountBounds(n);
      if DigitCount(m) > DigitCount(n) {
        Pow10Monotone(DigitCount(n), DigitCount(m) - 1);
      }
    }
  }

  /** The gutter is at least one digit wide and never narrows as the block count grows. */
  lemma GutterWidthMonotone(a: int, b: int, charWidth: nat)
    requires a <= b
    ensures Margin + charWidth <= GutterWidth(a, charWidth) <= GutterWidth(b, charWidth)
  {
    DigitCountMonotone(Max1(a), Max1(b));
    var da, db := DigitCount(Max1(a)), DigitCount(Max1(b));
    assert 1 <= da <= db;
    assert charWidth * 1 <= charWidth * da <= charWidth * db by {
      MultiplyMonotone(charWidth, 1, da);
      MultiplyMonotone(charWidth, da, db);
    }
  }

  lemma MultiplyMonotone(c: nat, x: nat, y: nat)
    requires x <= y
    ensures c * x <= c * y
  {
    assert c * y == c * x + c * (y - x);
  }

  /** Every line number up to the block count fits in the digits the gutter reserves. */
  lemma LabelsFit(line: nat, blockCount: int)
    requires 1 <= line <= Max1(blockCount)
    ensures |DecimalString(line)| <= DigitCount(Max1(blockCount))
  {
    DigitCountMonotone(line, Max1(blockCount));
  }

  // ---------------------------------------------------------------------
  // Painting the line numbers

  /** A text block as the paint loop sees it: whether it is shown and its height. */
  datatype Block = Block(visible: bool, height: nat)

  /** One `drawText` call: a box, whether the text is right-aligned in it, and the 1-based number `line` written as `text`. */
  datatype DrawCall = DrawCall(x: int, y: int, width: int, height: int, rightAligned: bool, line: nat, text: string)

  /**
   * What the paint handler reads from the editor: the document's blocks,
   * the number of the first visible block, that block's top after the
   * content offset, the gutter's width and the font height.
   */
  datatype View = View(blocks: seq<Block>, first: nat, firstTop: int, areaWidth: int, fontHeight: int)

  /** The height of block `j`; past the last block the (invalid) block has none. */
  function HeightAt(v: View, j: nat): nat
  {
    if j < |v.blocks| then v.blocks[j].height else 0
  }

  /** The top of block `j`: the first visible block's top plus the heights of the blocks in between. */
  function TopOf(v: View, j: nat): int
    requires v.first <= j
    decreases j - v.first
  {
    if j == v.first then v.firstTop else TopOf(v, j - 1) + HeightAt(v, j - 1)
  }

  /** Block `j` gets a number: it is shown and it overlaps the rows of `rect`. */
  predicate Numbered(v: View, rect: Rect, j: nat)
    requires v.first <= j < |v.blocks|
  {
    && v.blocks[j].visible
    && TopOf(v, j) <= rect.Bottom()
    && TopOf(v, j) + v.blocks[j].height >= rect.Top()
  }

  /** The number drawn for block `j`: right-aligned, at the block's top, in a box 10 pixels narrower than the gutter. */
  function NumberAt(v: View, j: nat): DrawCall
    requires v.first <= j
  {
    DrawCall(0, TopOf(v, j), v.areaWidth - RightPadding, v.fontHeight, true, j + 1, DecimalString(j + 1))
  }

  /** Reference: the numbers of every block from `j` on that is shown and overlaps `rect`, in block order. */
  function Painted(v: View, rect: Rect, j: nat): seq<DrawCall>
    requires v.first <= j
    decreases |v.blocks| - j
  {
    if j >= |v.blocks| then []
    else (if Numbered(v, rect, j) then [NumberAt(v, j)] else []) + Painted(v, rect, j + 1)
  }

  /** Blocks never move up: each top is at or below the previous one. */
  lemma {:induction false} TopsNonDecreasing(v: View, i: nat, j: nat)
    requires v.first <= i <= j
    ensures TopOf(v, i) <= TopOf(v, j)
    decreases j - i
  {
    if i < j {
      TopsNonDecreasing(v, i, j - 1);
    }
  }

  /** Once a block starts below the repaint region, no later block gets a number. */
  lemma {:induction false} NothingBelow(v: View, rect: Rect, j: nat)
    requires v.first <= j
    requires TopOf(v, j) > rect.Bottom()
    ensures Painted(v, rect, j) == []
    decreases |v.blocks| - j
  {
    if j < |v.blocks| {
      TopsNonDecreasing(v, j, j + 1);
      NothingBelow(v, rect, j + 1);
    }
  }

  /**
   * `lineNumberAreaPaintEvent`: walk the blocks from the first visible
   * one, drawing a number for each shown block that reaches into the
   * repaint region, and stop at the end of the document or at the first
   * block that starts below the region.
   */
  method PaintLineNumbers(v: View, rect: Rect) returns (draws: seq<DrawCall>)
    requires v.first <= |v.blocks|
    ensures draws == Painted(v, rect, v.first)
  {
    draws := [];
    var blockNumber := v.first;
    var top := v.firstTop;
    var bottom := top + HeightAt(v, blockNumber);
    while blockNumber < |v.blocks| && top <= rect.Bottom()
      invariant v.first <= blockNumber <= |v.blocks|
      invariant top == TopOf(v, blockNumber)
      invariant bottom == top + HeightAt(v, blockNumber)
      invariant Painted(v, rect, v.first) == draws + Painted(v, rect, blockNumber)
      decreases |v.blocks| - blockNumber
    {
      if v.blocks[blockNumber].visible && bottom >= rect.Top() {
        var number := DecimalString(blockNumber + 1);
        draws := draws + [DrawCall(0, top, v.areaWidth - RightPadding, v.fontHeight, true, blockNumber + 1, number)];
      }
      blockNumber := blockNumber + 1;
      top := bottom;
      bottom := top + HeightAt(v, blockNumber);
    }
    if blockNumber < |v.blocks| {
      NothingBelow(v, rect, blockNumber);
    }
  }

  /** The lines numbered in a list of draw calls. */
  function Lines(draws: seq<DrawCall>): set<nat>
  {
    set d | d in draws :: d.line
  }

  /** Every call in `p` is the number of a block at or after `j`, drawn as `NumberAt` draws it. */
  predicate NumbersFrom(v: View, p: seq<DrawCall>, j: nat)
  {
    forall a :: 0 <= a < |p| ==>
      v.first <= j && j + 1 <= p[a].line <= |v.blocks| && p[a] == NumberAt(v, p[a].line - 1)
  }

  lemma PaintedUnfold(v: View, rect: Rect, j: nat)
    requires v.first <= j < |v.blocks|
    ensures Numbered(v, rect, j) ==> Painted(v, rect, j) == [NumberAt(v, j)] + Painted(v, rect, j + 1)
    ensures !Numbered(v, rect, j) ==> Painted(v, rect, j) == Painted(v, rect, j + 1)
  {
  }

  lemma NumbersFromCons(v: View, tail: seq<DrawCall>, j: nat)
    requires v.first <= j < |v.blocks|
    requires NumbersFrom(v, tail, j + 1)
    ensures NumbersFrom(v, [NumberAt(v, j)] + tail, j)
  {
    var p := [NumberAt(v, j)] + tail;
    forall a | 0 <= a < |p|
      ensures j + 1 <= p[a].line <= |v.blocks| && p[a] == NumberAt(v, p[a].line - 1)
    {
      if a > 0 {
        assert p[a] == tail[a - 1];
      }
    }
  }

  lemma NumbersFromWeaken(v: View, p: seq<DrawCall>, j: nat)
    requires v.first <= j
    requires NumbersFrom(v, p, j + 1)
    ensures NumbersFrom(v, p, j)
  {
  }

  lemma {:induction false} PaintedShape(v: View, rect: Rect, j: nat)
    requires v.first <= j
    ensures NumbersFrom(v, Painted(v, rect, j), j)
    decreases |v.blocks| - j
  {
    if j < |v.blocks| {
      var tail := Painted(v, rect, j + 1);
      PaintedShape(v, rect, j + 1);
      PaintedUnfold(v, rect, j);
      if Numbered(v, rect, j) {
        NumbersFromCons(v, tail, j);
      } else {
        NumbersFromWeaken(v, tail, j);
      }
    } else {
      assert Painted(v, rect, j) == [];
    }
  }

  /**
   * Each number is right-aligned at its block's top, in a box 10 pixels
   * narrower than the gutter and one font height tall, and reads as the
   * block's 1-based number.
   */
  lemma PaintedBoxes(v: View, rect: Rect)
    ensures var p := Painted(v, rect, v.first);
      forall a :: 0 <= a < |p| ==>
        && v.first < p[a].line <= |v.blocks|
        && p[a].y == TopOf(v, p[a].line - 1)
        && p[a].x == 0 && p[a].width == v.areaWidth - RightPadding
        && p[a].height == v.fontHeight && p[a].rightAligned
        && p[a].text == DecimalString(p[a].line)
  {
    PaintedShape(v, rect, v.first);
  }

  predicate LinesAscending(p: seq<DrawCall>)
  {
    forall a, b :: 0 <= a < b < |p| ==> p[a].line < p[b].line
  }

  lemma AscendingCons(v: View, tail: seq<DrawCall>, j: nat)
    requires v.first <= j < |v.blocks|
    requires NumbersFrom(v, tail, j + 1) && LinesAscending(tail)
    ensures LinesAscending([NumberAt(v, j)] + tail)
  {
    var p := [NumberAt(v, j)] + tail;
    forall a, b | 0 <= a < b < |p|
      ensures p[a].line < p[b].line
    {
      assert p[b] == tail[b - 1];
      if a > 0 {
        assert p[a] == tail[a - 1];
      }
    }
  }

  lemma AscendingStep(v: View, rect: Rect, j: nat)
    requires v.first <= j < |v.blocks|
    requires NumbersFrom(v, Painted(v, rect, j + 1), j + 1)
    requires LinesAscending(Painted(v, rect, j + 1))
    ensures LinesAscending(Painted(v, rect, j))
  {
    var tail := Painted(v, rect, j + 1);
    if Numbered(v, rect, j) {
      assert Painted(v, rect, j) == [NumberAt(v, j)] + tail by {
        PaintedUnfold(v, rect, j);
      }
      AscendingCons(v, tail, j);
    } else {
      assert Painted(v, rect, j) == tail by {
        PaintedUnfold(v, rect, j);
      }
    }
  }

  /** The drawn numbers strictly increase. */
  lemma {:induction false} PaintedAscending(v: View, rect: Rect, j: nat)
    requires v.first <= j
    ensures LinesAscending(Painted(v, rect, j))
    decreases |v.blocks| - j
  {
    if j < |v.blocks| {
      PaintedAscending(v, rect, j + 1);
      PaintedShape(v, rect, j + 1);
      AscendingStep(v, rect, j);
    } else {
      assert Painted(v, rect, j) == [];
    }
  }

  /** Exactly the shown blocks that reach into the region get a number. */
  lemma {:induction false} PaintedLines(v: View, rect: Rect, j: nat)
    requires v.first <= j
    ensures var p := Painted(v, rect, j);
      && (forall k :: j <= k < |v.blocks| ==> (k + 1 in Lines(p) <==> Numbered(v, rect, k)))
      && (forall n :: n in Lines(p) ==> j + 1 <= n <= |v.blocks|)
    decreases |v.blocks| - j
  {
    if j < |v.blocks| {
      var tail := Painted(v, rect, j + 1);
      PaintedLines(v, rect, j + 1);
      PaintedUnfold(v, rect, j);
      if Numbered(v, rect, j) {
        assert Lines([NumberAt(v, j)] + tail) == {j + 1} + Lines(tail);
      }
    } else {
      assert Painted(v, rect, j) == [];
    }
  }

  // ---------------------------------------------------------------------
  // Reacting to the editor's notifications

  datatype Margins = Margins(left: int, top: int, right: int, bottom: int)

  /**
   * `update_line_number_area_width`: reserve the gutter as the viewport's
   * left margin. The new block count it is handed is not used; the width
   * follows the editor's current block count.
   */
  function UpdateLineNumberAreaWidth(newBlockCount: int, blockCount: int, charWidth: nat): (m: Margins)
    ensures m.left == GutterWidth(blockCount, charWidth) >= Margin + charWidth
    ensures m.top == 0 && m.right == 0 && m.bottom == 0
  {
    GutterWidthMonotone(blockCount, blockCount, charWidth);
    Margins(GutterWidth(blockCount, charWidth), 0, 0, 0)
  }

  /** How the gutter follows an update of the text area: scroll it, or repaint part of it. */
  datatype Repaint = ScrollBy(dx: int, dy: int) | UpdateRegion(region: Rect)

  /** The effect of one update request: the repaint, and the margins set if they are recomputed. */
  datatype UpdateEffect = UpdateEffect(repaint: Repaint, margins: Option<Margins>)

  /**
   * `update_line_number_area`: a vertical scroll moves the gutter by the
   * same amount; otherwise the gutter's strip level with the updated
   * region is repainted. The margins are recomputed when the region
   * covers the whole viewport.
   */
  function UpdateLineNumberArea(rect: Rect, dy: int, viewport: Rect, areaWidth: int, blockCount: int, charWidth: nat): (r: UpdateEffect)
    ensures r.repaint.ScrollBy? <==> dy != 0
    ensures dy != 0 ==> r.repaint == ScrollBy(0, dy)
    ensures dy == 0 ==>
      var strip := r.repaint.region;
      && strip.Top() == rect.Top() && strip.Bottom() == rect.Bottom()
      && strip.Left() == 0 && strip.Right() == areaWidth - 1
    ensures r.margins.Some? <==> rect.Contains(viewport)
    ensures r.margins.Some? ==> r.margins.value.left == GutterWidth(blockCount, charWidth)
  {
    var repaint := if dy != 0 then ScrollBy(0, dy) else UpdateRegion(Rect(0, rect.y, areaWidth, rect.height));
    var margins := if rect.Contains(viewport) then Some(UpdateLineNumberAreaWidth(0, blockCount, charWidth)) else None;
    UpdateEffect(repaint, margins)
  }

  /**
   * A colour: the editor's own blue, RGB (118, 150, 185), or a colour made
   * lighter by `QColor.lighter` with a percentage factor.
   */
  datatype Color = EditorBlue | Lighter(base: Color, factor: nat)

  /** The current-line background: the editor's blue lightened by a factor of 160 percent. */
  const LineColor := Lighter(EditorBlue, 160)

  /** A text cursor: the selection runs from `anchor` to `position`. */
  datatype TextCursor = TextCursor(anchor: nat, position: nat)

  /** An extra selection: a cursor, its background colour and whether it spans the full width. */
  datatype ExtraSelection = ExtraSelection(cursor: TextCursor, background: Color, fullWidth: bool)

  /**
   * `highlight_current_line`: a read-only editor gets no extra
   * selections; otherwise one full-width selection at the caret, with its
   * selection collapsed onto the caret, in the editor's blue, lightened.
   */
  function HighlightCurrentLine(readOnly: bool, caret: TextCursor): (r: seq<ExtraSelection>)
    ensures readOnly <==> |r| == 0
    ensures !readOnly ==> |r| == 1
    ensures forall s :: s in r ==>
      && s.fullWidth && s.background == LineColor
      && s.cursor.anchor == s.cursor.position == caret.position
  {
    if readOnly then []
    else
      var cursor := TextCursor(caret.position, caret.position);
      [ExtraSelection(cursor, LineColor, true)]
  }

  /**
   * `resizeEvent`: the gutter sits at the contents' top-left corner, is as
   * tall as the contents and as wide as the line numbers need.
   */
  function ResizeGutter(contents: Rect, blockCount: int, charWidth: nat): (r: Rect)
    ensures r.Left() == contents.Left() && r.Top() == contents.Top()
    ensures r.Bottom() == contents.Bottom()
    ensures r.width == GutterWidth(blockCount, charWidth) >= Margin + charWidth
  {
    GutterWidthMonotone(blockCount, blockCount, charWidth);
    Rect(contents.x, contents.y, GutterWidth(blockCount, charWidth), contents.height)
  }
}

=== FILE: highlighter.dfy ===
/**
 * The rule-driven syntax highlighter for JSON text blocks
 * (unreal-script-editor/codeEditor/highlighter/jsonHighlight.py).
 *
 * The toolkit's regular expressions report offsets and lengths, and
 * `setFormat` counts, in UTF-16 code units. The model covers blocks whose
 * characters all lie in the Basic Multilingual Plane, where one `char` is
 * one code unit, so `|text|` is the block's length as the toolkit
 * measures it.
 *
 * Regular-expression matching is abstract. A compiled pattern is a value
 * of the type parameter `R` (the JSON table uses `JsonPattern`, whose
 * regular-expression text `Source` gives), and a `Matcher` answers, for a
 * pattern, a block of text and an offset, where the next match at or
 * after the offset starts and how long it is.
 */
module Highlighter {
  import opened Wrappers

  datatype Color = DarkBlue | DarkGreen

  /** A character format; `foreground` is `None` when the rule leaves the colour unset. */
  datatype CharFormat = CharFormat(foreground: Option<Color>, bold: bool)

  datatype HighlightRule<R> = HighlightRule(pattern: R, format: CharFormat)

  datatype Match = Match(start: nat, length: nat)

  /** One `setFormat` call: `length` characters from `start` take `format`. */
  datatype Span = Span(start: nat, length: nat, format: CharFormat)

  /** A regular-expression engine: the first match of `pattern` in `text` at or after `from`. */
  type Matcher<!R> = (R, string, nat) -> Option<Match>

  /** A search result lies at or after `from`, inside the text, and is at least one character long. */
  predicate InRange(r: Option<Match>, from: nat, n: nat)
  {
    r.Some? ==> from <= r.value.start && 1 <= r.value.length && r.value.start + r.value.length <= n
  }

  /**
   * Every search for `pattern` in `text` behaves like a search for a
   * pattern that consumes at least one character. The three JSON patterns
   * all do: each needs a digit, sign or dot, a quote, or a colon.
   */
  predicate Consumes<R>(m: Matcher<R>, pattern: R, text: string)
  {
    forall from: nat :: from <= |text| ==> InRange(m(pattern, text, from), from, |text|)
  }

  predicate AllConsume<R>(m: Matcher<R>, rules: seq<HighlightRule<R>>, text: string)
  {
    forall k :: 0 <= k < |rules| ==> Consumes(m, rules[k].pattern, text)
  }

  /** Where the search after the spans `s` resumes: the end of the last span, or `from`. */
  function ResumeAt(s: seq<Span>, from: nat): nat
  {
    if |s| == 0 then from else s[|s| - 1].start + s[|s| - 1].length
  }

  /**
   * The spans one rule paints, searching from `from`: each search resumes
   * where the previous match ended, until the pattern no longer matches.
   */
  function RuleSpans<R>(m: Matcher<R>, rule: HighlightRule<R>, text: string, from: nat): (r: seq<Span>)
    requires from <= |text|
    requires Consumes(m, rule.pattern, text)
    ensures forall i :: 0 <= i < |r| ==>
      && from <= r[i].start && 1 <= r[i].length && r[i].start + r[i].length <= |text|
      && r[i].format == rule.format
    ensures forall i, j :: 0 <= i < j < |r| ==> r[i].start + r[i].length <= r[j].start
    decreases |text| - from
  {
    match m(rule.pattern, text, from)
    case None => []
    case Some(found) =>
      assert InRange(m(rule.pattern, text, from), from, |text|);
      var rest := RuleSpans(m, rule, text, found.start + found.length);
      var r := [Span(found.start, found.length, rule.format)] + rest;
      assert forall i :: 1 <= i < |r| ==> r[i] == rest[i - 1];
      r
  }

  /** One step of the scan: a match becomes the first span, and the scan resumes where it ends. */
  lemma RuleSpansUnfold<R>(m: Matcher<R>, rule: HighlightRule<R>, text: string, from: nat)
    requires from <= |text|
    requires Consumes(m, rule.pattern, text)
    requires m(rule.pattern, text, from).Some?
    ensures var found := m(rule.pattern, text, from).value;
      && from < found.start + found.length <= |text|
      && RuleSpans(m, rule, text, from)
         == [Span(found.start, found.length, rule.format)] + RuleSpans(m, rule, text, found.start + found.length)
  {
    assert InRange(m(rule.pattern, text, from), from, |text|);
  }

  /**
   * `r` is the matcher's answers in a chain: the first span is the first
   * match from `from`, and each next one is the first match where the
   * previous one ended.
   */
  predicate Chained<R>(m: Matcher<R>, pattern: R, text: string, from: nat, r: seq<Span>)
  {
    && (|r| > 0 ==> m(pattern, text, from) == Some(Match(r[0].start, r[0].length)))
    && (forall i :: 0 <= i < |r| - 1 ==>
          m(pattern, text, r[i].start + r[i].length) == Some(Match(r[i + 1].start, r[i + 1].length)))
  }

  lemma ChainedCons<R>(m: Matcher<R>, pattern: R, text: string, from: nat, s: Span, rest: seq<Span>)
    requires m(pattern, text, from) == Some(Match(s.start, s.length))
    requires Chained(m, pattern, text, s.start + s.length, rest)
    ensures Chained(m, pattern, text, from, [s] + rest)
  {
    var r := [s] + rest;
    forall i | 0 <= i < |r| - 1
      ensures m(pattern, text, r[i].start + r[i].length) == Some(Match(r[i + 1].start, r[i + 1].length))
    {
      assert r[i + 1] == rest[i];
      if i > 0 {
        assert r[i] == rest[i - 1];
      }
    }
  }

  /** The spans are the matcher's answers in a chain. */
  lemma {:induction false} RuleSpansChain<R>(m: Matcher<R>, rule: HighlightRule<R>, text: string, from: nat)
    requires from <= |text|
    requires Consumes(m, rule.pattern, text)
    ensures Chained(m, rule.pattern, text, from, RuleSpans(m, rule, text, from))
    decreases |text| - from
  {
    match m(rule.pattern, text, from)
    case None =>
    case Some(found) =>
      var next := found.start + found.length;
      var s := Span(found.start, found.length, rule.format);
      assert RuleSpans(m, rule, text, from) == [s] + RuleSpans(m, rule, text, next) by {
        RuleSpansUnfold(m, rule, text, from);
      }
      RuleSpansChain(m, rule, text, next);
      ChainedCons(m, rule.pattern, text, from, s, RuleSpans(m, rule, text, next));
  }

  /** The scan stops exactly where the matcher reports no further match. */
  lemma {:induction false} RuleSpansStop<R>(m: Matcher<R>, rule: HighlightRule<R>, text: string, from: nat)
    requires from <= |text|
    requires Consumes(m, rule.pattern, text)
    ensures var r := RuleSpans(m, rule, text, from);
      && ResumeAt(r, from) <= |text|
      && m(rule.pattern, text, ResumeAt(r, from)).None?
    decreases |text| - from
  {
    match m(rule.pattern, text, from)
    case None =>
    case Some(found) =>
      var next := found.start + found.length;
      var s := Span(found.start, found.length, rule.format);
      assert RuleSpans(m, rule, text, from) == [s] + RuleSpans(m, rule, text, next) by {
        RuleSpansUnfold(m, rule, text, from);
      }
      RuleSpansStop(m, rule, text, next);
      ResumeCons(s, RuleSpans(m, rule, text, next), from);
  }

  /** A scan that starts with span `s` resumes where its rest resumes from the end of `s`. */
  lemma ResumeCons(s: Span, rest: seq<Span>, from: nat)
    ensures ResumeAt([s] + rest, from) == ResumeAt(rest, s.start + s.length)
  {
    if |rest| > 0 {
      assert ([s] + rest)[|rest|] == rest[|rest| - 1];
    }
  }

  /** The spans of every rule in table order: the first rule's spans first. */
  function BlockSpans<R>(m: Matcher<R>, rules: seq<HighlightRule<R>>, text: string): seq<Span>
    requires AllConsume(m, rules, text)
    decreases |rules|
  {
    if |rules| == 0 then []
    else
      var n := |rules| - 1;
      assert AllConsume(m, rules[..n], text) by {
        assert forall k :: 0 <= k < n ==> rules[..n][k] == rules[k];
      }
      BlockSpans(m, rules[..n], text) + RuleSpans(m, rules[n], text, 0)
  }

  // ---------------------------------------------------------------------
  // Formats

  /** The per-character formats of a block before highlighting: none. */
  function Blank(n: nat): seq<Option<CharFormat>>
  {
    seq(n, _ => None)
  }

  /** `setFormat(start, count, format)`: the characters from `start`, `count` of them, within the block. */
  function SetFormat(fs: seq<Option<CharFormat>>, start: nat, count: nat, f: CharFormat): (r: seq<Option<CharFormat>>)
    ensures |r| == |fs|
    ensures forall i :: 0 <= i < |fs| ==> r[i] == if start <= i < start + count then Some(f) else fs[i]
  {
    seq(|fs|, i requires 0 <= i < |fs| => if start <= i < start + count then Some(f) else fs[i])
  }

  /** The formats after painting `spans` in order. */
  function ApplySpans(fs: seq<Option<CharFormat>>, spans: seq<Span>): (r: seq<Option<CharFormat>>)
    ensures |r| == |fs|
    decreases |spans|
  {
    if |spans| == 0 then fs
    else
      var s := spans[|spans| - 1];
      SetFormat(ApplySpans(fs, spans[..|spans| - 1]), s.start, s.length, s.format)
  }

  predicate Covers(s: Span, p: nat)
  {
    s.start <= p < s.start + s.length
  }

  /** Some span of `spans` covers character `p`. */
  predicate Covered(spans: seq<Span>, p: nat)
  {
    exists i :: 0 <= i < |spans| && Covers(spans[i], p)
  }

  /** Every span of `spans` carries format `f`, as the spans of one rule do. */
  predicate Uniform(spans: seq<Span>, f: CharFormat)
  {
    forall i :: 0 <= i < |spans| ==> spans[i].format == f
  }

  /** Reference: the format of the last span in `spans` that covers `p`, if any. */
  function LastCover(spans: seq<Span>, p: nat): (r: Option<CharFormat>)
    decreases |spans|
  {
    if |spans| == 0 then None
    else if Covers(spans[|spans| - 1], p) then Some(spans[|spans| - 1].format)
    else LastCover(spans[..|spans| - 1], p)
  }

  /** Painting spans in order leaves each character in the format of the last span over it. */
  lemma {:induction false} ApplySpansLastCover(fs: seq<Option<CharFormat>>, spans: seq<Span>, p: nat)
    requires p < |fs|
    ensures ApplySpans(fs, spans)[p] == if LastCover(spans, p).Some? then LastCover(spans, p) else fs[p]
    decreases |spans|
  {
    if |spans| > 0 {
      ApplySpansLastCover(fs, spans[..|spans| - 1], p);
    }
  }

  /** A later group of spans wins over an earlier one wherever it covers the character. */
  lemma {:induction false} LastCoverConcat(a: seq<Span>, b: seq<Span>, p: nat)
    ensures LastCover(a + b, p) == if LastCover(b, p).Some? then LastCover(b, p) else LastCover(a, p)
    decreases |b|
  {
    if |b| == 0 {
      assert a + b == a;
    } else {
      var n := |b| - 1;
      assert (a + b)[..|a + b| - 1] == a + b[..n];
      assert (a + b)[|a + b| - 1] == b[n];
      LastCoverConcat(a, b[..n], p);
    }
  }

  /** Within one rule's spans, a character is covered exactly when the rule's format is the last cover. */
  lemma {:induction false} LastCoverOneFormat(spans: seq<Span>, f: CharFormat, p: nat)
    requires Uniform(spans, f)
    ensures LastCover(spans, p) == if Covered(spans, p) then Some(f) else None
    decreases |spans|
  {
    if |spans| > 0 {
      var n := |spans| - 1;
      LastCoverOneFormat(spans[..n], f, p);
      if Covered(spans[..n], p) {
        var i :| 0 <= i < n && Covers(spans[..n][i], p);
        assert Covers(spans[i], p);
      }
      if Covered(spans, p) && !Covers(spans[n], p) {
        var i :| 0 <= i < |spans| && Covers(spans[i], p);
        assert spans[..n][i] == spans[i];
      }
    }
  }

  /**
   * Three groups of spans painted one group after the other, each group in
   * one format: a character takes the last group's format if that group
   * covers it, else the middle group's, else the first group's, and
   * otherwise stays unformatted.
   */
  lemma LaterRulesWin(n: nat, a: seq<Span>, fa: CharFormat, b: seq<Span>, fb: CharFormat, c: seq<Span>, fc: CharFormat, p: nat)
    requires p < n
    requires Uniform(a, fa) && Uniform(b, fb) && Uniform(c, fc)
    ensures var formats := ApplySpans(Blank(n), a + b + c);
      && (Covered(c, p) ==> formats[p] == Some(fc))
      && (!Covered(c, p) && Covered(b, p) ==> formats[p] == Some(fb))
      && (!Covered(c, p) && !Covered(b, p) && Covered(a, p) ==> formats[p] == Some(fa))
      && (!Covered(c, p) && !Covered(b, p) && !Covered(a, p) ==> formats[p] == None)
  {
    ApplySpansLastCover(Blank(n), a + b + c, p);
    LastCoverConcat(a + b, c, p);
    LastCoverConcat(a, b, p);
    LastCoverOneFormat(a, fa, p);
    LastCoverOneFormat(b, fb, p);
    LastCoverOneFormat(c, fc, p);
  }

  /**
   * One rule's turn in `highlightBlock`: search from the start of the
   * block, paint each match in the rule's format and resume the search
   * where the match ended, until the pattern no longer matches.
   */
  method ApplyRule<R>(m: Matcher<R>, rule: HighlightRule<R>, text: string, spans0: seq<Span>, formats0: seq<Option<CharFormat>>)
    returns (spans: seq<Span>, formats: seq<Option<CharFormat>>)
    requires Consumes(m, rule.pattern, text)
    requires formats0 == ApplySpans(Blank(|text|), spans0)
    ensures spans == spans0 + RuleSpans(m, rule, text, 0)
    ensures formats == ApplySpans(Blank(|text|), spans)
  {
    spans := spans0;
    formats := formats0;
    var from: nat := 0;
    var found := m(rule.pattern, text, 0);
    while found.Some?
      invariant from <= |text|
      invariant found == m(rule.pattern, text, from)
      invariant spans0 + RuleSpans(m, rule, text, 0) == spans + RuleSpans(m, rule, text, from)
      invariant formats == ApplySpans(Blank(|text|), spans)
      decreases |text| - from
    {
      ScanStep(m, rule, text, from, spans);
      var index := found.value.start;
      var length := found.value.length;
      ApplySpansSnoc(Blank(|text|), spans, Span(index, length, rule.format));
      formats := SetFormat(formats, index, length, rule.format);
      spans := spans + [Span(index, length, rule.format)];
      from := index + length;
      found := m(rule.pattern, text, from);
    }
  }

  /** One step of the loop: the match at `from` moves from the pending scan to the spans found so far. */
  lemma ScanStep<R>(m: Matcher<R>, rule: HighlightRule<R>, text: string, from: nat, done: seq<Span>)
    requires from <= |text|
    requires Consumes(m, rule.pattern, text)
    requires m(rule.pattern, text, from).Some?
    ensures var found := m(rule.pattern, text, from).value;
      && from < found.start + found.length <= |text|
      && done + RuleSpans(m, rule, text, from)
         == (done + [Span(found.start, found.length, rule.format)]) + RuleSpans(m, rule, text, found.start + found.length)
  {
    RuleSpansUnfold(m, rule, text, from);
  }

  /** Painting one more span repaints on top of what the earlier spans painted. */
  lemma ApplySpansSnoc(fs: seq<Option<CharFormat>>, spans: seq<Span>, s: Span)
    ensures ApplySpans(fs, spans + [s]) == SetFormat(ApplySpans(fs, spans), s.start, s.length, s.format)
  {
    assert (spans + [s])[..|spans|] == spans;
  }

  /** `highlightBlock`: every rule in table order takes its turn on the block. */
  method HighlightBlock<R>(m: Matcher<R>, rules: seq<HighlightRule<R>>, text: string) returns (spans: seq<Span>, formats: seq<Option<CharFormat>>)
    requires AllConsume(m, rules, text)
    ensures spans == BlockSpans(m, rules, text)
    ensures formats == ApplySpans(Blank(|text|), spans)
  {
    spans := [];
    formats := Blank(|text|);
    var k := 0;
    while k < |rules|
      invariant 0 <= k <= |rules|
      invariant AllConsume(m, rules[..k], text)
      invariant spans == BlockSpans(m, rules[..k], text)
      invariant formats == ApplySpans(Blank(|text|), spans)
    {
      assert Consumes(m, rules[k].pattern, text);
      spans, formats := ApplyRule(m, rules[k], text, spans, formats);
      assert rules[..k + 1][..k] == rules[..k];
      assert AllConsume(m, rules[..k + 1], text) by {
        assert forall i :: 0 <= i <= k ==> rules[..k + 1][i] == rules[i];
      }
      k := k + 1;
    }
    assert rules[..|rules|] == rules;
  }

  // ---------------------------------------------------------------------
  // The JSON rule table

  /** The JSON highlighter's three compiled regular expressions; `Source` gives each one's text. */
  datatype JsonPattern = NumberPattern | KeyPattern | ValuePattern

  /** The text of each regular expression, as the rule table compiles it. */
  function Source(p: JsonPattern): string
  {
    match p
    case NumberPattern => "([-0-9.]+)(?!([^\"]*\"[\\s]*\\:))"
    case KeyPattern => "(\"[^\"]*\")\\s*\\:"
    case ValuePattern => ":+(?:[: []*)(\"[^\"]*\")"
  }

  /** Numbers (signs, digits and dots) not inside a key: dark blue, bold. */
  const NumericRule := HighlightRule(NumberPattern, CharFormat(Some(DarkBlue), true))
  /** A quoted key followed by a colon: bold. */
  const KeyRule := HighlightRule(KeyPattern, CharFormat(None, true))
  /** A colon followed by a quoted string value: dark green. */
  const ValueRule := HighlightRule(ValuePattern, CharFormat(Some(DarkGreen), false))

  /** The JSON highlighter's rules, in the order they are applied. */
  const JsonRules := [NumericRule, KeyRule, ValueRule]

  /** The three JSON patterns consume input on `text`, so the table can be applied to it. */
  predicate JsonReady(m: Matcher<JsonPattern>, text: string)
  {
    && Consumes(m, NumericRule.pattern, text)
    && Consumes(m, KeyRule.pattern, text)
    && Consumes(m, ValueRule.pattern, text)
  }

  /** The JSON table's spans are the numeric spans, then the key spans, then the value spans. */
  lemma JsonSpans(m: Matcher<JsonPattern>, text: string)
    requires JsonReady(m, text)
    ensures AllConsume(m, JsonRules, text)
    ensures BlockSpans(m, JsonRules, text)
      == RuleSpans(m, NumericRule, text, 0) + RuleSpans(m, KeyRule, text, 0) + RuleSpans(m, ValueRule, text, 0)
  {
    var numbers := RuleSpans(m, NumericRule, text, 0);
    var keys := RuleSpans(m, KeyRule, text, 0);
    var values := RuleSpans(m, ValueRule, text, 0);
    assert JsonRules[..2] == [NumericRule, KeyRule];
    assert [NumericRule, KeyRule][..1] == [NumericRule];
    assert [NumericRule][..0] == [];
    assert BlockSpans(m, [NumericRule], text) == numbers;
    assert BlockSpans(m, [NumericRule, KeyRule], text) == numbers + keys;
    assert BlockSpans(m, JsonRules, text) == BlockSpans(m, [NumericRule, KeyRule], text) + values;
  }

  /**
   * The JSON table's precedence: a character inside a string-value match
   * is dark green whatever else matched it; otherwise a key match makes it
   * bold; otherwise a numeric match makes it bold dark blue; otherwise it
   * keeps no format.
   */
  lemma JsonPrecedence(m: Matcher<JsonPattern>, text: string, p: nat)
    requires JsonReady(m, text)
    requires p < |text|
    ensures AllConsume(m, JsonRules, text)
    ensures var formats := ApplySpans(Blank(|text|), BlockSpans(m, JsonRules, text));
      var numbers := RuleSpans(m, NumericRule, text, 0);
      var keys := RuleSpans(m, KeyRule, text, 0);
      var values := RuleSpans(m, ValueRule, text, 0);
      && (Covered(values, p) ==> formats[p] == Some(ValueRule.format))
      && (!Covered(values, p) && Covered(keys, p) ==> formats[p] == Some(KeyRule.format))
      && (!Covered(values, p) && !Covered(keys, p) && Covered(numbers, p) ==> formats[p] == Some(NumericRule.format))
      && (!Covered(values, p) && !Covered(keys, p) && !Covered(numbers, p) ==> formats[p] == None)
  {
    JsonSpans(m, text);
    LaterRulesWin(|text|, RuleSpans(m, NumericRule, text, 0), NumericRule.format,
      RuleSpans(m, KeyRule, text, 0), KeyRule.format, RuleSpans(m, ValueRule, text, 0), ValueRule.format, p);
  }

  /** A block where no rule matches gets no spans and no formats. */
  lemma {:induction false} NoMatchNoSpans<R>(m: Matcher<R>, rules: seq<HighlightRule<R>>, text: string)
    requires AllConsume(m, rules, text)
    requires forall k :: 0 <= k < |rules| ==> m(rules[k].pattern, text, 0).None?
    ensures BlockSpans(m, rules, text) == []
    decreases |rules|
  {
    if |rules| > 0 {
      var n := |rules| - 1;
      assert AllConsume(m, rules[..n], text) by {
        assert forall k :: 0 <= k < n ==> rules[..n][k] == rules[k];
      }
      assert forall k :: 0 <= k < n ==> rules[..n][k] == rules[k];
      NoMatchNoSpans(m, rules[..n], text);
    }
  }

  /** An empty block gets no spans: nothing of at least one character fits in it. */
  lemma EmptyBlockNoSpans<R>(m: Matcher<R>, rules: seq<HighlightRule<R>>)
    requires AllConsume(m, rules, "")
    ensures BlockSpans(m, rules, "") == []
  {
    forall k | 0 <= k < |rules|
      ensures m(rules[k].pattern, "", 0).None?
    {
      assert Consumes(m, rules[k].pattern, "");
      assert InRange(m(rules[k].pattern, "", 0), 0, 0);
    }
    NoMatchNoSpans(m, rules, "");
  }
}

=== FILE: output_log.dfy ===
/**
 * The output panel (outputTextWidget.py): an append-only document of
 * text written in one of four colours, scrolled to the bottom after
 * every write.
 *
 * Modelling assumptions: the document is the ordered list of insertions
 * made since the last clear (each `insertPlainText`/`insertHtml` call is
 * one segment). The toolkit inserts at the panel's text cursor; the model
 * assumes that cursor sits at the end of the document with nothing
 * selected, which holds until the user clicks or selects in the panel.
 * The scrollbar maximum is whatever the toolkit's layout computes for a
 * document, passed in as a `Layout` function, and the plain text an HTML
 * fragment renders to is a `Render` function.
 */
module OutputLog {
  import opened Wrappers

  /** The four character formats: red error, yellow warning, blue-grey info, light-grey regular text. */
  datatype Format = ErrorFormat | WarningFormat | InfoFormat | RegularFormat

  /** One insertion into the document; an HTML insertion keeps its markup and the plain text it renders to. */
  datatype Segment = Plain(format: Format, text: string) | Html(markup: string, rendered: string)

  /** The panel: the insertions since the last clear and the vertical scroll position. */
  datatype Log = Log(segments: seq<Segment>, scroll: int)

  /** The scrollbar maximum the toolkit's layout gives a document. */
  type Layout = seq<Segment> -> int

  /** The plain text the toolkit's HTML import produces for a fragment. */
  type Render = string -> string

  const Newline := "\n"
  const LineBreak := "<br>"

  /** A freshly created panel. */
  const Empty := Log([], 0)

  /** The format `update_logger` selects for a severity tag; `None` stands for Python's `None`. */
  function FormatFor(mtype: Option<string>): (f: Format)
    ensures f == InfoFormat <==> mtype == Some("info")
    ensures f == WarningFormat <==> mtype == Some("warning")
    ensures f == ErrorFormat <==> mtype == Some("error")
    ensures f == RegularFormat <==> mtype !in {Some("info"), Some("warning"), Some("error")}
  {
    if mtype == Some("info") then InfoFormat
    else if mtype == Some("warning") then WarningFormat
    else if mtype == Some("error") then ErrorFormat
    else RegularFormat
  }

  /** The characters a segment contributes to the plain-text view. */
  function TextOf(s: Segment): string
  {
    match s
    case Plain(_, t) => t
    case Html(_, t) => t
  }

  /**
   * The text inserted into a document since the last clear: every
   * segment's text, in order. This is the text before the toolkit
   * normalises it; `toPlainText` returns it unchanged only for text with
   * no carriage return, line or paragraph separator, or no-break space.
   */
  function Transcript(segments: seq<Segment>): string
    decreases |segments|
  {
    if |segments| == 0 then ""
    else Transcript(segments[..|segments| - 1]) + TextOf(segments[|segments| - 1])
  }

  /** Appending one segment adds exactly its text. */
  lemma TranscriptSnoc(s: seq<Segment>, x: Segment)
    ensures Transcript(s + [x]) == Transcript(s) + TextOf(x)
  {
    assert (s + [x])[..|s|] == s;
  }

  lemma {:induction false} TranscriptAppend(a: seq<Segment>, b: seq<Segment>)
    ensures Transcript(a + b) == Transcript(a) + Transcript(b)
    decreases |b|
  {
    if |b| == 0 {
      assert a + b == a;
    } else {
      var init, last := b[..|b| - 1], b[|b| - 1];
      SplitLast(a, b);
      TranscriptSnoc(a + init, last);
      TranscriptSnoc(init, last);
      TranscriptAppend(a, init);
      Regroup(Transcript(a), Transcript(init), TextOf(last));
    }
  }

  /** A nonempty list is its front followed by its last element, also after a prefix. */
  lemma SplitLast(a: seq<Segment>, b: seq<Segment>)
    requires |b| > 0
    ensures b == b[..|b| - 1] + [b[|b| - 1]]
    ensures a + b == (a + b[..|b| - 1]) + [b[|b| - 1]]
  {
  }

  lemma Regroup(x: string, y: string, z: string)
    ensures (x + y) + z == x + (y + z)
  {
  }

  lemma TranscriptPair(a: Segment, b: Segment)
    ensures Transcript([a, b]) == TextOf(a) + TextOf(b)
  {
    assert [a, b][..1] == [a];
    assert [a][..0] == [];
    assert Transcript([a]) == Transcript([]) + TextOf(a);
    assert Transcript([a, b]) == Transcript([a]) + TextOf(b);
  }

  /** Every segment from position `from` on is plain text in format `f`. */
  predicate PlainFrom(segments: seq<Segment>, from: nat, f: Format)
  {
    forall i :: from <= i < |segments| ==> segments[i].Plain? && segments[i].format == f
  }

  /** `update_logger`: write `message` and a newline in the severity's format, then scroll to the bottom. */
  function UpdateLogger(log: Log, message: string, mtype: Option<string>, layout: Layout): (r: Log)
    ensures log.segments < r.segments
    ensures |r.segments| == |log.segments| + 2
    ensures PlainFrom(r.segments, |log.segments|, FormatFor(mtype))
    ensures Transcript(r.segments) == Transcript(log.segments) + message + Newline
    ensures r.scroll == layout(r.segments)
  {
    var f := FormatFor(mtype);
    var added := [Plain(f, message), Plain(f, Newline)];
    var segments := log.segments + added;
    TranscriptAppend(log.segments, added);
    TranscriptPair(added[0], added[1]);
    Log(segments, layout(segments))
  }

  /**
   * `update_logger_html`: write an HTML fragment and a line break, then
   * scroll to the bottom. A `<br>` becomes a line separator, which the
   * plain-text view shows as a newline.
   */
  function UpdateLoggerHtml(log: Log, html: string, render: Render, layout: Layout): (r: Log)
    ensures log.segments < r.segments
    ensures r.segments[|log.segments|..] == [Html(html, render(html)), Html(LineBreak, Newline)]
    ensures Transcript(r.segments) == Transcript(log.segments) + render(html) + Newline
    ensures r.scroll == layout(r.segments)
  {
    var added := [Html(html, render(html)), Html(LineBreak, Newline)];
    var segments := log.segments + added;
    TranscriptAppend(log.segments, added);
    TranscriptPair(added[0], added[1]);
    assert segments[|log.segments|..] == added;
    Log(segments, layout(segments))
  }

  /** `clear`: the document becomes empty and the view returns to the top. */
  function Clear(log: Log): (r: Log)
    ensures r.segments == []
  {
    Empty
  }

  /** After a clear, the next write is all the panel shows. */
  lemma ClearForgetsHistory(log: Log, message: string, mtype: Option<string>, layout: Layout)
    ensures Transcript(UpdateLogger(Clear(log), message, mtype, layout).segments) == message + Newline
  {
  }

  /** Two writes keep both messages, in the order they were written. */
  lemma {:induction false} WritesAccumulate(log: Log, m1: string, t1: Option<string>, m2: string, t2: Option<string>, layout: Layout)
    ensures var r := UpdateLogger(UpdateLogger(log, m1, t1, layout), m2, t2, layout);
      && log.segments < r.segments
      && Transcript(r.segments) == Transcript(log.segments) + m1 + Newline + m2 + Newline
  {
  }
}

=== FILE: tab_panel.dfy ===
/**
 * The tabbed script panel of the script editor window
 * (unreal_script_editor/main.py): script tabs followed by a trailing
 * "add" pseudo-tab, saved to and restored from a list of tab records.
 *
 * Modelling assumptions: the tab widget is a sequence of pages and a
 * current index; `insertTab` inserts into the sequence (appending when
 * the index is out of range), `removeTab` deletes from it, and
 * `setCurrentIndex` ignores an index outside the widget. The config
 * file is modelled at record level: what `save_configs` writes is the
 * record list, and what `load_configs` reads is that list or nothing
 * when the file is absent.
 */
module TabPanel {
  import opened Wrappers

  /** One saved tab: its position, label, whether it was current, and its script. */
  datatype TabConfig = TabConfig(index: int, tabLabel: string, active: bool, command: string)

  /** A page of the tab widget: a script editor, or the trailing "add" pseudo-tab. */
  datatype Page = Script(tabLabel: string, text: string) | AddPage

  datatype TabWidget = TabWidget(pages: seq<Page>, current: int)

  const DefaultLabel := "Python"

  /** The tab loaded when there is nothing to load. */
  const DefaultConfig := TabConfig(0, DefaultLabel, true, "")

  /** The widget as the window layout creates it: only the add tab. */
  const Initial := TabWidget([AddPage], 0)

  /** Script tabs first, the add tab last and only there, and a current tab that exists. */
  predicate WellFormed(w: TabWidget)
  {
    && |w.pages| >= 1
    && w.pages[|w.pages| - 1] == AddPage
    && (forall i :: 0 <= i < |w.pages| - 1 ==> w.pages[i].Script?)
    && 0 <= w.current < |w.pages|
  }

  // ---------------------------------------------------------------------
  // Tab widget primitives

  function SetCurrentIndex(w: TabWidget, i: int): TabWidget
  {
    if 0 <= i < |w.pages| then w.(current := i) else w
  }

  function InsertPage(pages: seq<Page>, index: int, p: Page): seq<Page>
  {
    if 0 <= index <= |pages| then pages[..index] + [p] + pages[index..] else pages + [p]
  }

  /** `tabText(i)`. */
  function TabText(w: TabWidget, i: int): string
    requires 0 <= i < |w.pages| && w.pages[i].Script?
  {
    w.pages[i].tabLabel
  }

  /** `currentWidget().toPlainText()`. */
  function CurrentText(w: TabWidget): string
    requires 0 <= w.current < |w.pages| && w.pages[w.current].Script?
  {
    w.pages[w.current].text
  }

  // ---------------------------------------------------------------------
  // Tab operations

  /** `insert_tab`: a script editor holding `command`, labelled `label`, goes in at `index` and becomes current. */
  function InsertTab(w: TabWidget, index: int, command: string, tabLabel: string): (r: TabWidget)
    ensures |r.pages| == |w.pages| + 1
    ensures 0 <= index <= |w.pages| ==>
      && r.pages[..index] == w.pages[..index]
      && r.pages[index] == Script(tabLabel, command)
      && r.pages[index + 1..] == w.pages[index..]
      && r.current == index
    ensures !(0 <= index <= |w.pages|) ==> r.pages == w.pages + [Script(tabLabel, command)] && r.current == w.current
  {
    var pages := InsertPage(w.pages, index, Script(tabLabel, command));
    assert 0 <= index <= |w.pages| ==> pages[..index] == w.pages[..index] && pages[index + 1..] == w.pages[index..];
    SetCurrentIndex(TabWidget(pages, w.current), index)
  }

  /** Wherever it goes, an inserted tab adds exactly its script page and removes nothing. */
  lemma InsertTabAdds(w: TabWidget, index: int, command: string, tabLabel: string)
    ensures multiset(InsertTab(w, index, command, tabLabel).pages) == multiset(w.pages) + multiset{Script(tabLabel, command)}
  {
    if 0 <= index <= |w.pages| {
      assert w.pages == w.pages[..index] + w.pages[index..];
    }
  }

  /**
   * `add_tab`, on a click on tab `index`: a click on the last (add) tab
   * inserts an empty "Python" tab just before it and makes it current; a
   * click on any other tab changes nothing.
   */
  function AddTab(w: TabWidget, index: int): (r: TabWidget)
    ensures 0 <= index == |w.pages| - 1 ==>
      && r.pages == w.pages[..index] + [Script(DefaultLabel, "")] + w.pages[index..]
      && r.current == index
    ensures index != |w.pages| - 1 ==> r == w
    ensures WellFormed(w) ==> WellFormed(r)
  {
    if index == |w.pages| - 1 then
      var r := InsertTab(w, index, "", DefaultLabel);
      assert index >= 0 ==> r.pages == r.pages[..index] + [r.pages[index]] + r.pages[index + 1..];
      r
    else w
  }

  /**
   * `remove_tab`, on a close request for tab `index`: unless the user
   * confirms, or when the tab is the add tab, nothing changes; otherwise
   * the tab is deleted and the one before it becomes current. When the
   * first tab is deleted the request for tab -1 is out of range; the model
   * then makes tab 0 current.
   */
  function RemoveTab(w: TabWidget, index: int, confirmed: bool): (r: TabWidget)
    requires 0 <= index < |w.pages|
    ensures !confirmed || index == |w.pages| - 1 ==> r == w
    ensures confirmed && index != |w.pages| - 1 ==>
      && |r.pages| == |w.pages| - 1
      && r.pages[..index] == w.pages[..index]
      && r.pages[index..] == w.pages[index + 1..]
      && r.current == if index > 0 then index - 1 else 0
    ensures WellFormed(w) ==> WellFormed(r)
  {
    if confirmed && index != |w.pages| - 1 then
      var pages := w.pages[..index] + w.pages[index + 1..];
      assert pages[..index] == w.pages[..index] && pages[index..] == w.pages[index + 1..];
      var r := TabWidget(pages, if index > 0 then index - 1 else 0);
      if WellFormed(w) then RemoveKeepsShape(w, index); r else r
    else w
  }

  /**
   * `currentWidget().toPlainText()`: the current tab's script, or `None`
   * when the current page is not a script editor (the add tab), on which
   * the call raises.
   */
  function ScriptText(w: TabWidget): (r: Option<string>)
    ensures r.Some? <==> 0 <= w.current < |w.pages| && w.pages[w.current].Script?
    ensures r.Some? ==> r.value == w.pages[w.current].text
  {
    if 0 <= w.current < |w.pages| && w.pages[w.current].Script? then Some(w.pages[w.current].text) else None
  }

  /**
   * `clear_script`: the current tab's editor is emptied. The add tab's
   * page is not a script editor, so with it current (or with no current
   * tab) the call raises, which the model answers with `None`.
   */
  function ClearScript(w: TabWidget): (r: Option<TabWidget>)
    ensures r.Some? <==> 0 <= w.current < |w.pages| && w.pages[w.current].Script?
    ensures r.Some? ==>
      && |r.value.pages| == |w.pages| && r.value.current == w.current
      && r.value.pages[w.current] == Script(w.pages[w.current].tabLabel, "")
      && forall i :: 0 <= i < |w.pages| && i != w.current ==> r.value.pages[i] == w.pages[i]
  {
    if 0 <= w.current < |w.pages| && w.pages[w.current].Script? then
      Some(w.(pages := w.pages[w.current := Script(w.pages[w.current].tabLabel, "")]))
    else None
  }

  /**
   * After `clear_script`, the saved records differ only in the current
   * tab's record, whose command is now empty.
   */
  lemma ClearScriptSaves(w: TabWidget)
    requires WellFormed(w) && w.pages[w.current].Script?
    ensures ClearScript(w).Some? && WellFormed(ClearScript(w).value)
    ensures var before, after := SaveConfigs(w).records, SaveConfigs(ClearScript(w).value).records;
      && |after| == |before|
      && after[w.current] == before[w.current].(command := "")
      && forall i :: 0 <= i < |before| && i != w.current ==> after[i] == before[i]
  {
    var c := ClearScript(w).value;
    assert forall i :: 0 <= i < |c.pages| - 1 ==> c.pages[i].Script? by {
      forall i | 0 <= i < |c.pages| - 1
        ensures c.pages[i].Script?
      {
        if i != w.current {
          assert c.pages[i] == w.pages[i];
        }
      }
    }
    assert c.pages[|c.pages| - 1] == w.pages[|w.pages| - 1];
  }

  /** Deleting a script tab keeps the add tab last and every other page a script. */
  lemma RemoveKeepsShape(w: TabWidget, index: int)
    requires WellFormed(w) && 0 <= index < |w.pages| - 1
    ensures WellFormed(TabWidget(w.pages[..index] + w.pages[index + 1..], if index > 0 then index - 1 else 0))
  {
    var pages := w.pages[..index] + w.pages[index + 1..];
    assert pages[|pages| - 1] == w.pages[|w.pages| - 1];
    forall i | 0 <= i < |pages| - 1
      ensures pages[i].Script?
    {
      if i < index {
        assert pages[i] == w.pages[i];
      } else {
        assert pages[i] == w.pages[i + 1];
      }
    }
  }

  /** Closing the only script tab leaves the add tab alone, and current. */
  lemma RemoveOnlyScript(tabLabel: string, text: string)
    ensures RemoveTab(TabWidget([Script(tabLabel, text), AddPage], 0), 0, true) == Initial
  {
    assert [Script(tabLabel, text), AddPage][1..] == [AddPage];
  }

  // ---------------------------------------------------------------------
  // Saving

  /** What `save_configs` produces: the records, and the widget as it leaves it. */
  datatype Saved = Saved(records: seq<TabConfig>, widget: TabWidget)

  /**
   * The loop of `save_configs` from tab `i`: switch to each script tab in
   * turn and record its position, label, whether it was current when
   * saving began (`activeIndex`), and its text.
   */
  function SaveFrom(w: TabWidget, activeIndex: int, i: nat): (r: Saved)
    requires WellFormed(w)
    requires i <= |w.pages| - 1
    ensures |r.records| == |w.pages| - 1 - i
    ensures forall k :: 0 <= k < |r.records| ==>
      r.records[k] == TabConfig(i + k, w.pages[i + k].tabLabel, activeIndex == i + k, w.pages[i + k].text)
    ensures r.widget.pages == w.pages
    ensures WellFormed(r.widget)
    decreases |w.pages| - 1 - i
  {
    if i == |w.pages| - 1 then Saved([], w)
    else
      var switched := SetCurrentIndex(w, i);
      var record := TabConfig(i, TabText(switched, i), activeIndex == i, CurrentText(switched));
      var rest := SaveFrom(switched, activeIndex, i + 1);
      var records := [record] + rest.records;
      assert forall k :: 1 <= k < |records| ==> records[k] == rest.records[k - 1];
      Saved(records, rest.widget)
  }

  /**
   * `save_configs`: one record per script tab (the add tab is skipped),
   * record `i` holding tab `i`'s position, label and text, flagged active
   * exactly when tab `i` is current; the widget ends as it started.
   */
  function SaveConfigs(w: TabWidget): (r: Saved)
    requires WellFormed(w)
    ensures |r.records| == |w.pages| - 1
    ensures forall i :: 0 <= i < |r.records| ==>
      r.records[i] == TabConfig(i, w.pages[i].tabLabel, i == w.current, w.pages[i].text)
    ensures forall i, j :: 0 <= i < |r.records| && 0 <= j < |r.records| && r.records[i].active && r.records[j].active ==> i == j
    ensures r.widget == w
  {
    var saved := SaveFrom(w, w.current, 0);
    Saved(saved.records, SetCurrentIndex(saved.widget, w.current))
  }

  // ---------------------------------------------------------------------
  // Loading

  /** The loop of `load_tabs`: insert one tab per record, in record order. */
  function InsertAll(w: TabWidget, configs: seq<TabConfig>): (r: TabWidget)
    ensures |r.pages| == |w.pages| + |configs|
    decreases |configs|
  {
    if |configs| == 0 then w
    else InsertAll(InsertTab(w, configs[0].index, configs[0].command, configs[0].tabLabel), configs[1..])
  }

  /** Wherever the records' indices point, the pages gained are exactly the records' scripts. */
  lemma {:induction false} InsertAllAdds(w: TabWidget, configs: seq<TabConfig>)
    ensures multiset(InsertAll(w, configs).pages) == multiset(w.pages) + multiset(Scripts(configs))
    decreases |configs|
  {
    if |configs| == 0 {
      assert Scripts(configs) == [];
    } else {
      var next := InsertTab(w, configs[0].index, configs[0].command, configs[0].tabLabel);
      InsertTabAdds(w, configs[0].index, configs[0].command, configs[0].tabLabel);
      InsertAllAdds(next, configs[1..]);
      ScriptsCons(configs);
    }
  }

  /** The active index `load_tabs` carries through its loop: each active record overrides it. */
  function ActiveAfter(configs: seq<TabConfig>, activeIndex: int): int
    decreases |configs|
  {
    if |configs| == 0 then activeIndex
    else ActiveAfter(configs[1..], if configs[0].active then configs[0].index else activeIndex)
  }

  /** Reference: the position saved in the last record flagged active, if any. */
  function LastActive(configs: seq<TabConfig>): Option<int>
    decreases |configs|
  {
    if |configs| == 0 then None
    else if configs[|configs| - 1].active then Some(configs[|configs| - 1].index)
    else LastActive(configs[..|configs| - 1])
  }

  /** Folding forward over the records picks the last active record, or keeps the starting index. */
  lemma {:induction false} ActiveAfterIsLastActive(configs: seq<TabConfig>, activeIndex: int)
    ensures ActiveAfter(configs, activeIndex) == LastActive(configs).GetOr(activeIndex)
    decreases |configs|
  {
    if |configs| > 0 {
      var next := if configs[0].active then configs[0].index else activeIndex;
      ActiveAfterIsLastActive(configs[1..], next);
      if |configs| == 1 {
        assert configs[1..] == [] && configs[..0] == [];
      } else {
        var n := |configs| - 1;
        assert configs[1..][..n - 1] == configs[..n][1..];
        assert configs[1..][n - 1] == configs[n];
        ActiveAfterIsLastActive(configs[..n], activeIndex);
        LastActiveSplit(configs);
      }
    }
  }

  /** Looking for the last active record from the back agrees with the tail's answer, or the head's. */
  lemma {:induction false} LastActiveSplit(configs: seq<TabConfig>)
    requires |configs| >= 1
    ensures LastActive(configs) == match LastActive(configs[1..])
      case Some(i) => Some(i)
      case None => if configs[0].active then Some(configs[0].index) else None
    decreases |configs|
  {
    var n := |configs| - 1;
    if n == 0 {
      assert configs[1..] == [];
      assert configs[..0] == [];
    } else if !configs[n].active {
      assert configs[1..][..n - 1] == configs[..n][1..];
      assert configs[1..][n - 1] == configs[n];
      LastActiveSplit(configs[..n]);
    } else {
      assert configs[1..][n - 1] == configs[n];
    }
  }

  /** The records `load_tabs` works from: the given ones, or the default tab when there are none. */
  function RecordsToLoad(configs: seq<TabConfig>): seq<TabConfig>
  {
    if |configs| == 0 then [DefaultConfig] else configs
  }

  /**
   * `load_tabs`: insert a script tab per record (the default tab when
   * there are none), carrying the record's label and command, and make
   * current the position of the last record flagged active, or 0 when
   * none is. Which pages it inserts, and where, is `LoadTabsAdds` and
   * `LoadTabsInOrder`.
   */
  function LoadTabs(w: TabWidget, configs: seq<TabConfig>): (r: TabWidget)
    ensures |r.pages| == |w.pages| + |RecordsToLoad(configs)|
    ensures var chosen := LastActive(RecordsToLoad(configs)).GetOr(0);
      0 <= chosen < |r.pages| ==> r.current == chosen
  {
    var records := RecordsToLoad(configs);
    var inserted := InsertAll(w, records);
    ActiveAfterIsLastActive(records, 0);
    SetCurrentIndex(inserted, ActiveAfter(records, 0))
  }

  /**
   * The pages after `load_tabs` are exactly the old pages and the
   * records' scripts, each with its record's label and command.
   */
  lemma LoadTabsAdds(w: TabWidget, configs: seq<TabConfig>)
    ensures multiset(LoadTabs(w, configs).pages) == multiset(w.pages) + multiset(Scripts(RecordsToLoad(configs)))
  {
    InsertAllAdds(w, RecordsToLoad(configs));
  }

  /** After `load_tabs`, records numbered on from the add tab's position sit in front of it, in record order. */
  lemma LoadTabsInOrder(w: TabWidget, configs: seq<TabConfig>)
    ensures NumberedFromAdd(w, RecordsToLoad(configs)) ==>
      LoadTabs(w, configs).pages == w.pages[..|w.pages| - 1] + Scripts(RecordsToLoad(configs)) + [AddPage]
  {
    InsertAllBeforeAdd(w, RecordsToLoad(configs));
  }

  /** The widget ends with the add tab, and the records are numbered on from its position. */
  predicate NumberedFromAdd(w: TabWidget, configs: seq<TabConfig>)
  {
    && |w.pages| >= 1 && w.pages[|w.pages| - 1] == AddPage
    && forall k :: 0 <= k < |configs| ==> configs[k].index == |w.pages| - 1 + k
  }

  /** Records numbered on from the add tab's position are inserted in front of it, in order. */
  lemma InsertAllBeforeAdd(w: TabWidget, configs: seq<TabConfig>)
    ensures NumberedFromAdd(w, configs) ==>
      InsertAll(w, configs).pages == w.pages[..|w.pages| - 1] + Scripts(configs) + [AddPage]
  {
    if NumberedFromAdd(w, configs) {
      var ps := w.pages[..|w.pages| - 1];
      assert w == TabWidget(ps + [AddPage], w.current);
      InsertInOrder(ps, w.current, configs);
    }
  }

  /**
   * `load_configs`: the records read from the config file, or nothing
   * when the file does not exist. With no file, or with an empty list,
   * exactly one empty "Python" tab goes in front, and it is current.
   */
  function LoadConfigs(w: TabWidget, file: Option<seq<TabConfig>>): (r: TabWidget)
    ensures file.None? || file == Some([]) ==>
      && r.pages == [Script(DefaultLabel, "")] + w.pages
      && r.current == 0
  {
    match file
    case None => LoadDefault(w); LoadTabs(w, [])
    case Some(configs) => LoadDefault(w); LoadTabs(w, configs)
  }

  /** With no records, `load_tabs` puts the default tab in front and makes it current. */
  lemma LoadDefault(w: TabWidget)
    ensures LoadTabs(w, []).pages == [Script(DefaultLabel, "")] + w.pages
    ensures LoadTabs(w, []).current == 0
  {
    var inserted := InsertTab(w, 0, "", DefaultLabel);
    assert [DefaultConfig][1..] == [];
    assert InsertAll(w, [DefaultConfig]) == inserted;
    assert inserted.pages == [Script(DefaultLabel, "")] + w.pages by {
      assert inserted.pages == inserted.pages[..0] + [inserted.pages[0]] + inserted.pages[1..];
    }
    assert ActiveAfter([DefaultConfig], 0) == 0;
  }

  /** Starting from the add tab alone, loading with no config file gives one empty current "Python" tab. */
  lemma LoadWithoutFile()
    ensures LoadConfigs(Initial, None) == TabWidget([Script(DefaultLabel, ""), AddPage], 0)
    ensures LoadConfigs(Initial, Some([])) == TabWidget([Script(DefaultLabel, ""), AddPage], 0)
    ensures WellFormed(LoadConfigs(Initial, None))
  {
  }

  // ---------------------------------------------------------------------
  // Round trip

  /** The script pages the records describe, in record order. */
  function Scripts(configs: seq<TabConfig>): (r: seq<Page>)
    ensures |r| == |configs|
    ensures forall k :: 0 <= k < |configs| ==> r[k] == Script(configs[k].tabLabel, configs[k].command)
    decreases |configs|
  {
    if |configs| == 0 then [] else [Script(configs[0].tabLabel, configs[0].command)] + Scripts(configs[1..])
  }

  /** A tab inserted at the add tab's position goes just before it and becomes current. */
  lemma InsertBeforeAdd(ps: seq<Page>, c: int, command: string, tabLabel: string)
    ensures InsertTab(TabWidget(ps + [AddPage], c), |ps|, command, tabLabel)
         == TabWidget((ps + [Script(tabLabel, command)]) + [AddPage], |ps|)
  {
    var w1 := InsertTab(TabWidget(ps + [AddPage], c), |ps|, command, tabLabel);
    assert w1.pages == w1.pages[..|ps|] + [w1.pages[|ps|]] + w1.pages[|ps| + 1..];
    assert (ps + [AddPage])[..|ps|] == ps;
    assert (ps + [AddPage])[|ps|..] == [AddPage];
  }

  /** Records numbered consecutively from the add tab's position go in, in order, in front of it. */
  lemma {:induction false} InsertInOrder(ps: seq<Page>, c: int, configs: seq<TabConfig>)
    requires forall k :: 0 <= k < |configs| ==> configs[k].index == |ps| + k
    ensures InsertAll(TabWidget(ps + [AddPage], c), configs).pages == ps + Scripts(configs) + [AddPage]
    decreases |configs|
  {
    if |configs| > 0 {
      var first := Script(configs[0].tabLabel, configs[0].command);
      var rest := configs[1..];
      assert configs == [configs[0]] + rest;
      RestNumbered(ps, configs);
      InsertInOrder(ps + [first], |ps|, rest);
      InsertInOrderStep(ps, c, configs[0], rest);
    } else {
      assert Scripts(configs) == [];
    }
  }

  /** The first record numbered at the add tab's position goes just before it. */
  lemma InsertAllFirst(ps: seq<Page>, c: int, configs: seq<TabConfig>)
    requires |configs| > 0 && configs[0].index == |ps|
    ensures InsertAll(TabWidget(ps + [AddPage], c), configs)
         == InsertAll(TabWidget((ps + [Script(configs[0].tabLabel, configs[0].command)]) + [AddPage], |ps|), configs[1..])
  {
    InsertBeforeAdd(ps, c, configs[0].command, configs[0].tabLabel);
  }

  /** Dropping the first of the consecutively numbered records leaves the rest numbered from one further on. */
  lemma RestNumbered(ps: seq<Page>, configs: seq<TabConfig>)
    requires |configs| > 0
    requires forall k :: 0 <= k < |configs| ==> configs[k].index == |ps| + k
    ensures forall k :: 0 <= k < |configs| - 1 ==> configs[1..][k].index == |ps| + 1 + k
  {
    assert forall k :: 0 <= k < |configs| - 1 ==> configs[1..][k] == configs[k + 1];
  }

  /** Inserting the first record before the add tab, then the rest in order, gives all of them in order. */
  lemma InsertInOrderStep(ps: seq<Page>, c: int, head: TabConfig, rest: seq<TabConfig>)
    requires head.index == |ps|
    requires InsertAll(TabWidget((ps + [Script(head.tabLabel, head.command)]) + [AddPage], |ps|), rest).pages
          == (ps + [Script(head.tabLabel, head.command)]) + Scripts(rest) + [AddPage]
    ensures InsertAll(TabWidget(ps + [AddPage], c), [head] + rest).pages == ps + Scripts([head] + rest) + [AddPage]
  {
    var configs := [head] + rest;
    assert configs[1..] == rest;
    RegroupFirst(ps, Script(head.tabLabel, head.command), Scripts(rest));
    InsertAllFirst(ps, c, configs);
    ScriptsCons(configs);
  }

  lemma RegroupFirst(ps: seq<Page>, first: Page, more: seq<Page>)
    ensures (ps + [first]) + more + [AddPage] == ps + ([first] + more) + [AddPage]
  {
  }

  lemma ScriptsCons(configs: seq<TabConfig>)
    requires |configs| > 0
    ensures Scripts(configs) == [Script(configs[0].tabLabel, configs[0].command)] + Scripts(configs[1..])
  {
  }

  /** Only record `p` is flagged active, so it is the last active one. */
  lemma {:induction false} LastActiveUnique(configs: seq<TabConfig>, p: nat)
    requires p < |configs| && configs[p].active
    requires forall k :: 0 <= k < |configs| && configs[k].active ==> k == p
    ensures LastActive(configs) == Some(configs[p].index)
    decreases |configs|
  {
    var n := |configs| - 1;
    if n != p {
      assert forall k :: 0 <= k < n ==> configs[..n][k] == configs[k];
      LastActiveUnique(configs[..n], p);
    }
  }

  /**
   * Saving and then loading the records into a fresh widget (the add tab
   * alone) restores every tab's label and text, their order, and which
   * tab is current, provided a script tab exists and is current.
   */
  lemma SaveLoadRoundTrip(w: TabWidget)
    requires WellFormed(w)
    requires w.pages[w.current].Script?
    ensures LoadConfigs(Initial, Some(SaveConfigs(w).records)) == w
  {
    var records := SaveConfigs(w).records;
    assert |records| >= 1;
    assert RecordsToLoad(records) == records;
    SavedPagesReload(w);
    SavedActiveReload(w);
    var r := LoadTabs(Initial, records);
    assert r.pages == w.pages && r.current == w.current;
  }

  /** Re-inserting the saved records in front of the add tab rebuilds the pages. */
  lemma SavedPagesReload(w: TabWidget)
    requires WellFormed(w)
    ensures InsertAll(Initial, SaveConfigs(w).records).pages == w.pages
  {
    var n := |w.pages| - 1;
    var ps, records := w.pages[..n], SaveConfigs(w).records;
    forall k | 0 <= k < |ps|
      ensures ps[k].Script? && records[k].index == k && records[k].tabLabel == ps[k].tabLabel && records[k].command == ps[k].text
    {
      assert records[k] == TabConfig(k, w.pages[k].tabLabel, k == w.current, w.pages[k].text);
    }
    ReloadPages(ps, records);
    assert w.pages == ps + [AddPage];
  }

  /** Records numbered from 0 that carry each page's label and text rebuild those pages before the add tab. */
  lemma {:induction false} ReloadPages(ps: seq<Page>, records: seq<TabConfig>)
    requires |records| == |ps|
    requires forall k :: 0 <= k < |ps| ==>
      ps[k].Script? && records[k].index == k && records[k].tabLabel == ps[k].tabLabel && records[k].command == ps[k].text
    ensures InsertAll(Initial, records).pages == ps + [AddPage]
  {
    assert Scripts(records) == ps by {
      forall k | 0 <= k < |ps|
        ensures Scripts(records)[k] == ps[k]
      {
        assert ps[k] == Script(records[k].tabLabel, records[k].command);
      }
    }
    InsertInOrder([], 0, records);
    assert [] + ps == ps;
  }

  /** The saved records flag exactly the current tab, so it is the last active one. */
  lemma SavedActiveReload(w: TabWidget)
    requires WellFormed(w)
    requires w.pages[w.current].Script?
    ensures LastActive(SaveConfigs(w).records) == Some(w.current)
  {
    var records := SaveConfigs(w).records;
    assert w.current < |records|;
    LastActiveUnique(records, w.current);
  }

  /** Three tabs "a", "b", "c" with the second current come back the same after saving and loading. */
  lemma ThreeTabScenario()
    ensures var w := TabWidget([Script("Python", "a"), Script("Python", "b"), Script("Python", "c"), AddPage], 1);
      LoadConfigs(Initial, Some(SaveConfigs(w).records)) == w
  {
    var w := TabWidget([Script("Python", "a"), Script("Python", "b"), Script("Python", "c"), AddPage], 1);
    SaveLoadRoundTrip(w);
  }
}

=== FILE: wrappers.dfy ===
/** The optional value used wherever the editor passes `None` or may find nothing. */
module Wrappers {

  datatype Option<+T> = None | Some(value: T) {

    /** The wrapped value, or `default` when there is none. */
    function GetOr(default: T): T
    {
      match this
      case Some(v) => v
      case None => default
    }
  }
}
